=== FILE: README.md ===
# Graphy editing engine in Dafny

Graphy is a browser tool for drawing a graph over an image and saving named
paths through it. Its engine lives in `public/app.js`. This project models
that engine as immutable data and pure transitions, with the canvas, the DOM
and the event wiring taken away. The state has four parts:

- the document: nodes, unweighted undirected edges `{a, b}`, and paths, each an ordered list of node ids;
- the path session: the selected node, the active path, the active end of that path, and the draft path;
- the undo and redo stacks of snapshots;
- the State outside the history: the id counters, the image size, and the load bookkeeping (the expected image size and whether the graph came from JSON).

The model is split into modules:

- `Wrappers` defines `Option`, which stands in for JavaScript's `null`.
- `Text` handles decimal digits and `trim`.
- `Ids` covers `createNodeId`/`createPathId` and `computeNextCounter`.
- `GraphStore` covers `edgeKey`, `findEdge`, `addEdge`/`removeEdge`/`toggleEdge`, and node deletion.
- `PathRegistry` covers paths, `rebuildProtectedSets` and `getPathsUsing*`.
- `Route` covers `buildAdjacency` and `bfsShortestPath`.
- `PathEdit` covers `applyPathEdit` and endpoint selection.
- `History` covers snapshots, `pushSnapshot`, `undo` and `redo`.
- `Invariant` defines the consistency every reachable state keeps.
- `Editor` models the click, key and button handlers.
- `Laws` proves that every handler preserves consistency.
- `Project` models JSON import and export.

An edge key is the unordered pair `{a, b}`. Only its symmetry matters: two
keys are equal exactly when they name the same two nodes.

Where the prose description of the tool and the code disagree, the model
follows the code:

- Edges carry no weight. They are `{a, b}` records, and routing is breadth-first search, so a route has the fewest edges. No weighted solver exists in the code.
- Paths need not be simple. A splice of a breadth-first route may revisit nodes already on the path.

The key properties are:

- Each handler leaves the state consistent (`Laws`):
  - every step of every path is an edge;
  - every edge joins existing nodes;
  - node ids and path ids are unique;
  - the selection and the active path exist;
  - the active end is index 0 or the last index of the active path.
- No handler deletes a protected node or edge (`Invariant.ProtectedKept` in the contracts of the graph edits).
- The breadth-first route is a shortest route. It is found whenever one exists, unless an edge names the empty id.
- Undo and redo are inverse operations.
- Exporting and then importing restores the document.

## Model

| member | source | states |
|---|---|---|
| GraphStore.KeyEqualIff | public/app.js:106-108 | Two edge keys are equal exactly when they name the same unordered pair of nodes, so `edgeKey(a, b) == edgeKey(b, a)`. |
| GraphStore.FindEdge | public/app.js:118-121 | The lookup fails exactly when no edge joins the two nodes in either order; otherwise it returns the first edge that does. |
| GraphStore.FindEdgeSymmetric | public/app.js:118-121 | Looking up `(a, b)` and `(b, a)` finds the same edge. |
| GraphStore.AddEdge | public/app.js:543-549 | A self-loop or an existing pair in either order changes nothing; otherwise exactly one edge `{a, b}` is appended. |
| GraphStore.AddEdgeLinks | public/app.js:543-549 | After adding two distinct nodes, they are joined. |
| GraphStore.AddEdgeKeepsSimple | public/app.js:543-549 | Adding never introduces a self-loop or a second edge on the same unordered pair. |
| GraphStore.AddEdgeIdempotent | public/app.js:543-549 | `add(a, b)` followed by `add(b, a)` leaves exactly one edge on the pair. |
| GraphStore.RemoveEdge | public/app.js:551-554 | Exactly the edges on the pair are dropped, and the rest keep their order (a subsequence of the list). Every other pair keeps its linkage, and a simple list stays simple. |
| GraphStore.RemoveAfterAdd | public/app.js:543-554 | Removing a pair right after adding it to a list where it was absent restores the list. |
| GraphStore.ToggleEdge | public/app.js:556-572 | The toggle is refused exactly when the pair is joined and protected. Otherwise, for two distinct nodes, it flips the pair's linkage; an unlinked self-pair leaves the list as it is. Every other pair is left alone and the list stays simple. |
| GraphStore.ToggleKeepsProtected | public/app.js:556-572 | A toggle never unlinks a protected pair. |
| GraphStore.RemoveNodeRecord | public/app.js:821 | Exactly the records with the deleted id go; every other node stays in its order, and unique ids stay unique. |
| GraphStore.RemoveIncident | public/app.js:822 | Exactly the edges touching the deleted node go, and the rest keep their order; pairs of other nodes keep their linkage. |
| Ids.FreshId | public/app.js:123-141 | The generated id is used by no current node (or path). The counter strictly increases. The id is `<prefix><counter - 1>`, and every counter value skipped names a taken id. |
| Ids.FormatReadsBack | public/app.js:282-292 | A generated id matches `^<prefix>(\d+)$`, and its digits read back to the counter it was made from. |
| Ids.NextCounter | public/app.js:282-292 | The recovered counter exceeds every counter found among the ids, and is one more than the largest, or 1 when none matches. |
| Ids.TakenBelowNext | public/app.js:282-292 | An id the counter could generate that is already taken lies below the recovered counter. |
| Ids.FreshAfterImport | public/app.js:123-131 | Right after recovery, the first generated id uses the recovered counter itself. |
| Text.Trim | public/app.js:471 | `trim()` cuts only white space from the two ends: the result is an infix of the input, preceded and followed only by white space, with no white space at either end; it is empty exactly when the input is all white space. |
| Text.LabelOrFallback | public/app.js:471 | An input that trims to nothing yields the fallback id; any other input yields its trimmed, non-empty text. |
| PathRegistry.RebuildProtectedSets | public/app.js:143-152 | The protected node set is exactly the union of the paths' node lists. The protected edge set is exactly the keys of consecutive pairs on some path. |
| PathRegistry.PathsUsingNode | public/app.js:154-156 | Exactly the paths that contain the node, kept in their original order (a subsequence of the path list). |
| PathRegistry.PathsUsingEdge | public/app.js:158-167 | Exactly the paths with a consecutive pair on the key, kept in their original order (a subsequence of the path list). |
| PathRegistry.ProtectedNodeHasBlockers | public/app.js:813-817 | A node is protected exactly when some path uses it, so a refusal always names at least one path. |
| PathRegistry.ProtectedEdgeHasBlockers | public/app.js:835-839 | A pair is protected exactly when some path steps over it, so a refusal always names at least one path. |
| PathRegistry.FindPath | public/app.js:114-116 | The index of the first path with the id, or `None` exactly when no path has it. |
| PathRegistry.RemovePath | public/app.js:511 | Exactly the paths with the id go, the rest keep their order (a subsequence of the path list), and unique ids stay unique. |
| Route.NeighborsLinked | public/app.js:574-585 | A node's adjacency list holds exactly the nodes an edge links it to. |
| Route.AdjacencyExact | public/app.js:574-585 | The adjacency map has a list for every node and every edge endpoint, and each list is exactly that id's neighbours. |
| Route.ShortestRoute | public/app.js:586-617 | Equal ends give `[start]`. A route found runs from start to target over edges and has no more nodes than any other such route. A route exists whenever the target is reachable and no edge names the empty id. |
| Route.TraceBack | public/app.js:609-616 | Walking the predecessor links from the target yields a shortest route from the start. |
| PathEdit.IndexOf | public/app.js:620 | The position of the first occurrence, or -1 exactly when the node is absent. |
| PathEdit.TruncateShape | public/app.js:620-632 | For a target already on the path, end 0 keeps the suffix from the target and the other end keeps the prefix up to it. The target becomes the active end at a boundary, and a connected path stays connected. |
| PathEdit.TruncateAtEndUnchanged | public/app.js:620-632 | Picking the active end's own node leaves the node list unchanged, provided that node does not also occur earlier. |
| PathEdit.ExtendShape | public/app.js:634-661 | Splicing a route at end 0 prepends its tail reversed; at the other end the path is cut after the end and the tail is appended. The target becomes the end at a boundary, and connectivity is preserved. |
| PathEdit.ApplyPathEdit | public/app.js:619-662 | Covers both branches of `applyPathEdit`. The direct edge, when present, adds exactly one node, and no splice adds more nodes than the shortest route. Refusal happens only when the target is off the path and, if no edge names the empty id, unreachable. |
| PathEdit.SelectEndpoint | public/app.js:708-722 | The handler's selection: "not on path" exactly when the node is absent. Selection succeeds exactly when the node's first occurrence is at index 0 or at the last index, and that index becomes the active end. |
| PathEdit.SelectEndpointRejectsLastNode | public/app.js:708-741 | A path reachable by two edits, D A B A, on which clicking the last node A is refused as not an endpoint. |
| PathEdit.SelectEndpointFixed | public/app.js:725-741 | Selection succeeds exactly when the node is the first or last on the path, and reports "not on path" exactly when it is absent. |
| PathEdit.SelectionsAgreeOnSingleOccurrence | public/app.js:708-741 | Where the node occurs at most once, the handler's selection and the corrected one agree. |
| History.Push | public/app.js:181-185 | Recording a snapshot puts it on top of the undo stack and always empties the redo stack. |
| History.Save | public/app.js:187-189 | Saving records the current snapshot itself. |
| History.Undo | public/app.js:206-213 | An empty undo stack does nothing. Otherwise the top becomes current and the current state goes onto the redo stack; a redo right after restores everything. |
| History.Redo | public/app.js:215-222 | An empty redo stack does nothing. Otherwise the top becomes current and the current state goes onto the undo stack. |
| History.UndoAfterRedo | public/app.js:206-222 | An undo right after a redo restores the timeline. |
| History.UndoAfterPush | public/app.js:181-213 | Undoing a recorded edit restores the snapshot taken before it and offers the edit for redo. |
| Editor.ClickEmpty | public/app.js:754-773 | Without an image, during path editing, or outside the image nothing changes. Otherwise one node with a fresh id is appended and selected, an edge from a selected existing node is added, and a snapshot is recorded. Paths and the path session are untouched. Outside the history, only the node counter moves; the image, the path counter and the load flag are kept. |
| Editor.ClickNode | public/app.js:703-801 | While a path is active, only an endpoint of it can be picked, judged by the node's first occurrence. A node off the path changes nothing. A node whose first occurrence is index 0 or the last index becomes the active end at that index and is selected, and nothing else changes. A node whose first occurrence is inner is refused. Otherwise the click selects, deselects, or toggles the edge from the selection, and only the edges and the selection change. A refused toggle records nothing and names exactly the paths that use the pair. The counters, the image and the load flag are never touched. |
| Editor.EditActivePath | public/app.js:664-683 | A failed edit raises "no path" and changes nothing. It fails exactly as `applyPathEdit` refuses: the target is off the path, not adjacent to the active end, and (when no edge names the empty id) unreachable from it. A successful one records a snapshot and makes the target the active end at a boundary. On a target already on the path, the new list is the truncation at its first occurrence. Otherwise the new list keeps the path's side at the active end and adds one node over a direct edge, and never more than the shortest route needs. The path stays connected, and other paths are left alone. The target is selected when it was already on the path; otherwise the selection is kept. Nodes, edges, the draft and the State outside the history are untouched. |
| Editor.BeginPath | public/app.js:685-700 | A one-node path with a fresh id and the label `Path <count + 1>` is appended and becomes active with its node as the end. The node is selected, the draft is cleared, and a snapshot is recorded. Outside the history, only the path counter moves. |
| Editor.ShiftClickNode | public/app.js:664-700 | Shift-clicks never change nodes or edges. With no active end it raises "select an endpoint". It edits the active path when there is one, with the refusal condition, the new node list and the selection that `Editor.EditActivePath` states. Otherwise it begins a path as `Editor.BeginPath` states. Outside the history only the path counter can move, and only when a path begins. |
| Editor.RightClickNode | public/app.js:804-831 | The action is refused while a path is active, and refused with the blocking labels for a protected node. Otherwise the node and exactly its incident edges go, the survivors keep their order, and a selection of it is cleared. Paths, the path session and the State outside the history are untouched. |
| Editor.RightClickEdge | public/app.js:833-848 | The action is refused while a path is active, and refused with the blocking labels for a protected pair. Otherwise the pair is unlinked and every other pair keeps its linkage. Nodes, paths, the selection, the path session and the State outside the history are untouched. |
| Editor.RightClickEmpty | public/app.js:849-851 | Clears the selection and touches nothing else: the reply state is the input state with only the selection reset. The right-click lock while editing applies here too. |
| Editor.Escape | public/app.js:1405-1416 | During path editing, the active end is dropped but the path stays active; the selection, the document, the history and the State outside it are kept. Otherwise nothing changes. |
| Editor.TogglePencil | public/app.js:440-452 | The pencil of the active path ends editing. Any other path's pencil makes that path active with no end chosen. The document, the history, the selection and the State outside the history are never touched, and ending editing keeps the draft. |
| Editor.DeletePath | public/app.js:509-523 | Exactly the paths with the id go, and a snapshot is recorded. Editing ends if it was the active path, and the draft is cleared if it was the draft. The remaining paths keep their order. The selection, the nodes and edges, and the State outside the history are untouched. |
| Editor.ToggleVisible | public/app.js:429-434 | Records a snapshot and flips only that path's visibility; nothing else in the snapshot or the State changes. |
| Editor.CommitLabel | public/app.js:470-478 | The new label is the trimmed input, or the path id when the input is blank. A snapshot is recorded only when the label changes. Only that path's label changes, and the State outside the history is kept. |
| Editor.UndoEdit | public/app.js:206-213 | Ctrl+Z restores the top of the undo stack, pops it, and pushes the current snapshot onto the redo stack. A following Ctrl+Y brings the state back. The State outside the history is kept. |
| Editor.RedoEdit | public/app.js:215-222 | Ctrl+Y restores the top of the redo stack, pops it, and pushes the current snapshot onto the undo stack. An empty stack does nothing, and the State outside the history is kept. |
| Laws.ClickEmptyValid | public/app.js:754-773 | Adding a node by clicking keeps the state consistent. |
| Laws.ClickNodeValid | public/app.js:703-801 | Clicking an existing node keeps the state consistent, in every branch. |
| Laws.RightClickNodeValid | public/app.js:812-831 | Node deletion keeps the state consistent: no path loses a node or an edge. |
| Laws.RightClickEdgeValid | public/app.js:833-848 | Edge deletion keeps the state consistent. |
| Laws.RightClickEmptyValid | public/app.js:849-851 | Clearing the selection keeps the state consistent. |
| Laws.EscapeValid | public/app.js:1410-1414 | Dropping the active end keeps the state consistent. |
| Laws.TogglePencilValid | public/app.js:440-452 | Toggling an existing path's pencil keeps the state consistent. |
| Laws.DeletePathValid | public/app.js:509-523 | Deleting a path keeps the state consistent; the active end never points at a deleted path. |
| Laws.UndoValid | public/app.js:206-213 | Undo keeps the state consistent. |
| Laws.RedoValid | public/app.js:215-222 | Redo keeps the state consistent. |
| Laws.ToggleVisibleValid | public/app.js:429-434 | The eye button keeps the state consistent. |
| Laws.ToggleVisibleTwice | public/app.js:429-434 | Pressing the eye button twice restores the document and session. |
| Laws.CommitLabelValid | public/app.js:470-478 | Committing a label keeps the state consistent. |
| Laws.CommitLabelIdempotent | public/app.js:470-478 | Committing the same input twice is the same as committing it once. |
| Project.LoadProject | public/app.js:294-320 | A payload without a usable size is rejected and nothing changes. Otherwise the document is replaced, the session and both stacks are cleared, and each counter is set to exactly `computeNextCounter` of the imported ids: one more than the largest counter found, or 1 when there is none. |
| Project.ExportProject | public/app.js:1287-1300 | The size is taken from the image, or else from the imported project. Export is refused exactly when that size is missing or zero, and writes the current document otherwise. |
| Project.ExportThenLoad | public/app.js:294-320 | Importing an exported project restores its nodes, edges and paths. Exporting again before an image is loaded writes the same file. |
| Project.LoadThenCreate | public/app.js:282-310 | After an import, the next generated node and path ids are the recovered counters themselves. |
| Project.LoadValid | public/app.js:299-301 | An import of a consistent document gives a consistent state. |
| Project.ExportThenLoadValid | public/app.js:1287-1300 | Re-importing the export of a consistent state gives a consistent state. |

## Left out

- Rendering, PNG export, hover tooltips, the status line and toasts are drawing and UI. A toast is kept only as the `Fault` a handler reports.
- Hit testing, zoom and pan are floating-point geometry. Handlers receive the node or edge that was hit and image coordinates; node coordinates are opaque `real`s.
- `FileReader`, `Image`, `JSON.parse` and the Blob download are left to the caller. A parsed payload whose list field is not an array arrives as `None`. Malformed records inside the lists are not modelled.
- The service worker, the build script and the smoke test hold no engine logic.
- Weights, weight stepping and a weighted solver do not appear in `public/app.js`: edges are `{a, b}` and routing is breadth-first.
- The JavaScript key `a|b` is modelled as an unordered pair, so ids containing `|` cannot collide.
- Counters are unbounded naturals. `Number` on a very long digit string loses precision in JavaScript, and the model does not.
- Node dragging, node-label editing, `clearProjectData`, `resetProject` and `setImage` are outside the modelled core.
- The label editor's own Escape handling, which takes precedence over the path session's Escape, is not modelled.
- When no image is loaded, `TogglePencil`, `DeletePath`, `ToggleVisible` and `CommitLabel` still run, as in the source; the buttons exist only for listed paths. `ToggleVisible` and `CommitLabel` do nothing for an unknown id.
- `handleLeftClick` reads `path.nodeIds` without checking whether the active path exists (public/app.js:709-710) and would throw. `Editor.ClickNode` changes nothing in that case.
- Route.ShortestRoute: promises a route only when no edge names the empty id. The walk back stops at the first id JavaScript treats as false (public/app.js:611), so an edge with an empty endpoint can hide a route.
- PathEdit.TruncateAtEndUnchanged: requires that the end node does not also occur earlier on the path. Otherwise `indexOf` finds the earlier copy and the path is cut there (public/app.js:620-630).
- Project.LoadValid: needs a consistent document as a precondition, because the import does not check the nodes, edges or paths it reads (public/app.js:299-301).

## Findings

| source | as written | input that shows it | evidently intended | confidence | as-written member | corrected member |
|---|---|---|---|---|---|---|
| public/app.js:708-741 | The endpoint check uses `indexOf`, so only the first occurrence of the clicked node counts, and a last node that also occurs earlier is refused as "not an endpoint". | Edges A-B and A-D. Begin a path at A, then extend end 0 to B, giving B A. Extend end 0 to D over the route B A D, giving D A B A. Press Escape and click the last node A. | The first node selects end 0 and the last node selects the last index, wherever else they occur. | not executed | PathEdit.SelectEndpointRejectsLastNode | PathEdit.SelectEndpointFixed |

`Editor.ClickNode` models the handler as written and calls `PathEdit.SelectEndpoint`. `PathEdit.SelectionsAgreeOnSingleOccurrence` shows that it agrees with `PathEdit.SelectEndpointFixed` on every path where the clicked node occurs at most once.

=== FILE: editor.dfy ===
/**
 * The editor state and the handlers that change it: left click on empty
 * canvas or on a node, shift-click on a node, right click on a node, an
 * edge or empty canvas, Escape, the pencil and delete buttons of a path,
 * and undo/redo. Hit testing and viewport math are out of the model: the
 * handlers receive the node or edge that was hit and image coordinates.
 */
module Editor {
  import opened Wrappers
  import opened Text
  import opened Ids
  import opened GraphStore
  import opened PathRegistry
  import opened Route
  import opened PathEdit
  import opened History
  import opened Invariant

  /** Image dimensions in pixels. */
  datatype Dims = Dims(width: real, height: real)

  /**
   * The editor state: the current snapshot with its undo/redo stacks, the id
   * counters, the loaded image's size, the size an imported project expects,
   * and whether the project came from an import.
   */
  datatype State = State(
    t: Timeline,
    nodeCounter: nat,
    pathCounter: nat,
    image: Option<Dims>,
    expectedImage: Option<Dims>,
    loadedFromJson: bool)

  /** The error toasts a handler can raise. */
  datatype Fault =
    | GraphEditsLocked
    | NodeInUse(blockers: seq<string>)
    | EdgeInUse(blockers: seq<string>)
    | NotAnEndpoint
    | NeedEndpoint
    | NoRoute(from: NodeId, to: NodeId)
    | InvalidProject

  /** A handler's outcome: the next state and the toast it raised, if any. */
  datatype Reply = Reply(state: State, fault: Option<Fault>)

  /** The current snapshot and every snapshot on the two stacks are consistent. */
  predicate Valid(s: State) {
    && SnapshotOk(s.t.cur)
    && (forall i :: 0 <= i < |s.t.undo| ==> SnapshotOk(s.t.undo[i]))
    && (forall i :: 0 <= i < |s.t.redo| ==> SnapshotOk(s.t.redo[i]))
  }

  /** Recording the current snapshot and moving to a consistent one keeps the state valid. */
  lemma CommitValid(s: State, next: Snapshot)
    requires Valid(s) && SnapshotOk(next)
    ensures Valid(Commit(s, next))
  {
    var r := Commit(s, next);
    assert forall i :: 0 <= i < |s.t.undo| ==> r.t.undo[i] == s.t.undo[i];
  }

  /** The click lies outside the image rectangle. */
  predicate Outside(d: Dims, x: real, y: real) {
    x < 0.0 || y < 0.0 || x > d.width || y > d.height
  }

  /** `saveSnapshot()` followed by the edit that makes `next` current. */
  function Commit(s: State, next: Snapshot): (r: State)
    ensures r.t.cur == next
    ensures r.t.undo == s.t.undo + [s.t.cur] && r.t.redo == []
  {
    s.(t := History.Push(s.t, s.t.cur).(cur := next))
  }

  /** A change to the session fields only: no snapshot is taken. */
  function Select(s: State, next: Snapshot): State {
    s.(t := s.t.(cur := next))
  }

  /** The graph (nodes, edges and paths) and the history are untouched. */
  predicate SameDocument(s: State, r: State) {
    && r.t.cur.nodes == s.t.cur.nodes && r.t.cur.edges == s.t.cur.edges && r.t.cur.paths == s.t.cur.paths
    && r.t.undo == s.t.undo && r.t.redo == s.t.redo
  }

  /**
   * Left click on empty canvas: without an image, during path editing, or
   * outside the image nothing happens; otherwise a node with a fresh id
   * (labelled by its id) is added, an edge from the selected node to it is
   * toggled, and the new node becomes selected.
   */
  function ClickEmpty(s: State, x: real, y: real): (r: Reply)
    ensures r.fault.None?
    ensures s.image.None? || Truthy(s.t.cur.activePathId) || Outside(s.image.value, x, y) ==> r.state == s
    ensures s.image.Some? && !Truthy(s.t.cur.activePathId) && !Outside(s.image.value, x, y) ==>
              && r.state.t.cur.selected.Some?
              && var id := r.state.t.cur.selected.value;
              && !HasNode(s.t.cur.nodes, id)
              && r.state.t.cur.nodes == s.t.cur.nodes + [Node(id, id, x, y)]
              && r.state.t.cur.paths == s.t.cur.paths
              && s.nodeCounter < r.state.nodeCounter
              && r.state.t.undo == s.t.undo + [s.t.cur] && r.state.t.redo == []
              && (!Truthy(s.t.cur.selected) ==> r.state.t.cur.edges == s.t.cur.edges)
              && (Truthy(s.t.cur.selected) && HasNode(s.t.cur.nodes, s.t.cur.selected.value)
                  && EndpointsExist(s.t.cur.nodes, s.t.cur.edges) ==>
                    r.state.t.cur.edges == s.t.cur.edges + [Edge(s.t.cur.selected.value, id)])
              && r.state.t.cur == s.t.cur.(nodes := r.state.t.cur.nodes, edges := r.state.t.cur.edges,
                                           selected := r.state.t.cur.selected)
    ensures r.state == s.(t := r.state.t, nodeCounter := r.state.nodeCounter)
    ensures ProtectedKept(s.t.cur, r.state.t.cur)
  {
    var cur := s.t.cur;
    if s.image.None? || Truthy(cur.activePathId) || Outside(s.image.value, x, y) then Reply(s, None)
    else
      var (id, counter) := FreshId('N', NodeIds(cur.nodes), s.nodeCounter);
      HasNodeIffInIds(cur.nodes, id);
      var edges := if Truthy(cur.selected) then EdgesAfterToggle(cur.edges, ProtectedEdges(cur.paths), cur.selected.value, id)
                   else cur.edges;
      FreshNotLinked(cur.nodes, cur.edges, cur.selected, id);
      HasNodeAppend(cur.nodes, Node(id, id, x, y));
      ToggleKeepsProtected(cur.edges, ProtectedEdges(cur.paths), cur.selected.GetOr(""), id);
      var next := cur.(nodes := cur.nodes + [Node(id, id, x, y)], edges := edges, selected := Some(id));
      Reply(Commit(s, next).(nodeCounter := counter), None)
  }

  /** Toggling the pair of the selected node and a node id no node has adds that edge. */
  lemma FreshNotLinked(nodes: seq<Node>, edges: seq<Edge>, selected: Option<NodeId>, id: NodeId)
    requires !HasNode(nodes, id)
    ensures selected.Some? && HasNode(nodes, selected.value) && EndpointsExist(nodes, edges) ==>
              selected.value != id
              && forall keys :: EdgesAfterToggle(edges, keys, selected.value, id) == edges + [Edge(selected.value, id)]
  {
  }

  /**
   * Plain left click on node `id`. While a path is active it only selects
   * an endpoint of that path (graph edits are disabled); otherwise it
   * selects the node, deselects it, or toggles the edge from the selected
   * node to it and moves the selection there.
   */
  function ClickNode(s: State, id: NodeId): (r: Reply)
    ensures s.image.None? ==> r == Reply(s, None)
    ensures Truthy(s.t.cur.activePathId) ==> SameDocument(s, r.state)
    ensures Truthy(s.t.cur.activePathId) && r.state != s ==>
              && r.fault.None?
              && FindPath(s.t.cur.paths, s.t.cur.activePathId.value).Some?
              && var ids := s.t.cur.paths[FindPath(s.t.cur.paths, s.t.cur.activePathId.value).value].nodeIds;
              && r.state.t.cur.selected == Some(id)
              && r.state.t.cur.activeEnd.Some?
              && r.state.t.cur.activeEnd.value.pathId == s.t.cur.activePathId.value
              && var k := r.state.t.cur.activeEnd.value.endIndex;
              && k < |ids| && ids[k] == id && AtBoundary(ids, k)
    ensures s.image.Some? && Truthy(s.t.cur.activePathId) && FindPath(s.t.cur.paths, s.t.cur.activePathId.value).Some? ==>
              var ids := s.t.cur.paths[FindPath(s.t.cur.paths, s.t.cur.activePathId.value).value].nodeIds;
              (r.fault == Some(Fault.NotAnEndpoint) <==> id in ids && IndexOf(ids, id) != 0 && IndexOf(ids, id) != |ids| - 1)
    ensures s.image.Some? && Truthy(s.t.cur.activePathId) && FindPath(s.t.cur.paths, s.t.cur.activePathId.value).Some? ==>
              var ids := s.t.cur.paths[FindPath(s.t.cur.paths, s.t.cur.activePathId.value).value].nodeIds;
              && (id !in ids ==> r == Reply(s, None))
              && (id in ids && (IndexOf(ids, id) == 0 || IndexOf(ids, id) == |ids| - 1) ==>
                    && r.fault.None?
                    && r.state == Select(s, s.t.cur.(activeEnd := Some(AppendEnd(s.t.cur.activePathId.value, IndexOf(ids, id))),
                                                     selected := Some(id))))
    ensures s.image.Some? && !Truthy(s.t.cur.activePathId) && s.t.cur.selected.None? ==>
              r == Reply(Select(s, s.t.cur.(selected := Some(id))), None)
    ensures s.image.Some? && !Truthy(s.t.cur.activePathId) && s.t.cur.selected == Some(id) ==>
              r == Reply(Select(s, s.t.cur.(selected := None)), None)
    ensures s.image.Some? && !Truthy(s.t.cur.activePathId) && s.t.cur.selected.Some? && s.t.cur.selected.value != id ==>
              var from := s.t.cur.selected.value;
              var refused := Linked(s.t.cur.edges, from, id) && Key(from, id) in ProtectedEdges(s.t.cur.paths);
              && r.state.t.cur.selected == Some(id)
              && r.state.t.cur.nodes == s.t.cur.nodes && r.state.t.cur.paths == s.t.cur.paths
              && r.state.t.cur == s.t.cur.(edges := r.state.t.cur.edges, selected := Some(id))
              && (refused ==> r.fault == Some(EdgeInUse(Labels(PathsUsingEdge(s.t.cur.paths, Key(from, id)))))
                              && |r.fault.value.blockers| > 0
                              && r.state.t.cur.edges == s.t.cur.edges && r.state.t.undo == s.t.undo
                              && r.state.t.redo == s.t.redo)
              && (!refused ==> r.fault.None? && r.state.t.undo == s.t.undo + [s.t.cur] && r.state.t.redo == []
                               && (Linked(r.state.t.cur.edges, from, id) <==> !Linked(s.t.cur.edges, from, id))
                               && forall u, v :: !Joins(Edge(from, id), u, v) ==>
                                    (Linked(r.state.t.cur.edges, u, v) <==> Linked(s.t.cur.edges, u, v)))
    ensures r.state == s.(t := r.state.t)
    ensures ProtectedKept(s.t.cur, r.state.t.cur)
  {
    var cur := s.t.cur;
    if s.image.None? then Reply(s, None)
    else if Truthy(cur.activePathId) then
      match FindPath(cur.paths, cur.activePathId.value)
      case None => Reply(s, None)
      case Some(i) =>
        var path := cur.paths[i];
        match SelectEndpoint(path.nodeIds, id)
        case NotOnPath => Reply(s, None)
        case NotAnEndpoint => Reply(s, Some(Fault.NotAnEndpoint))
        case Selected(k) =>
          Reply(Select(s, cur.(activeEnd := Some(AppendEnd(path.pathId, k)), selected := Some(id))), None)
    else if cur.selected.None? then Reply(Select(s, cur.(selected := Some(id))), None)
    else if cur.selected.value == id then Reply(Select(s, cur.(selected := None)), None)
    else
      var from := cur.selected.value;
      match ToggleEdge(cur.edges, ProtectedEdges(cur.paths), from, id)
      case Protected =>
        var k := Key(from, id);
        ProtectedEdgeHasBlockers(cur.paths, k);
        Reply(Select(s, cur.(selected := Some(id))), Some(EdgeInUse(Labels(PathsUsingEdge(cur.paths, k)))))
      case Toggled(edges) =>
        ToggleKeepsProtected(cur.edges, ProtectedEdges(cur.paths), from, id);
        Reply(Commit(s, cur.(edges := edges, selected := Some(id))), None)
  }

  /** The active end is set and indexes into the active path: what `applyPathEdit` is called with. */
  predicate EndInRange(cur: Snapshot) {
    Truthy(cur.activePathId) && cur.activeEnd.Some? && FindPath(cur.paths, cur.activePathId.value).Some? ==>
      cur.activeEnd.value.endIndex < |cur.paths[FindPath(cur.paths, cur.activePathId.value).value].nodeIds|
  }

  /** A valid state always meets what the shift-click handler needs. */
  lemma ValidEndInRange(s: State)
    requires Valid(s)
    ensures EndInRange(s.t.cur)
  {
    if s.t.cur.activeEnd.Some? {
      ActiveEndFound(s.t.cur);
    }
  }

  /** The label of the `n`-th path: `Path ${n}`. */
  function PathLabel(n: nat): string {
    "Path " + Decimal(n)
  }

  /**
   * What a successful edit of path `i` at its active end leaves behind: the
   * path keeps its id and place, the target `id` is its new active end at
   * one of its two ends, it stays connected, it gains only edge endpoints,
   * no other path changes, and the previous state is on the undo stack.
   */
  predicate EditedAt(s: State, r: State, i: nat, id: NodeId)
    requires i < |s.t.cur.paths|
  {
    && |r.t.cur.paths| == |s.t.cur.paths|
    && r.t.cur.nodes == s.t.cur.nodes && r.t.cur.edges == s.t.cur.edges
    && r.t.cur.paths[i].pathId == s.t.cur.paths[i].pathId
    && r.t.cur.activePathId == s.t.cur.activePathId
    && r.t.cur.activeEnd.Some? && r.t.cur.activeEnd.value.pathId == s.t.cur.paths[i].pathId
    && var ids := r.t.cur.paths[i].nodeIds;
    && var k := r.t.cur.activeEnd.value.endIndex;
    && k < |ids| && ids[k] == id && AtBoundary(ids, k)
    && (Connected(s.t.cur.edges, s.t.cur.paths[i].nodeIds) ==> Connected(s.t.cur.edges, ids))
    && (id in s.t.cur.paths[i].nodeIds ==> r.t.cur.selected == Some(id))
    && (id !in s.t.cur.paths[i].nodeIds ==> r.t.cur.selected == s.t.cur.selected)
    && r.t.cur == s.t.cur.(paths := r.t.cur.paths, activeEnd := r.t.cur.activeEnd, selected := r.t.cur.selected)
    && (forall v :: v in ids ==> v in s.t.cur.paths[i].nodeIds || v in Endpoints(s.t.cur.edges))
    && (forall j :: 0 <= j < |s.t.cur.paths| && j != i ==> r.t.cur.paths[j] == s.t.cur.paths[j])
    && r.t.undo == s.t.undo + [s.t.cur] && r.t.redo == []
    && r == s.(t := r.t)
  }

  /**
   * The reply of an edit of path `i` towards `id` at its active end: a
   * refusal ("no path in graph") changes nothing and comes exactly as
   * `applyPathEdit` refuses; a success is an `EditedAt` state whose node
   * list and active end are what `applyPathEdit` promises.
   */
  ghost predicate EditReply(s: State, r: Reply, i: nat, id: NodeId)
    requires i < |s.t.cur.paths| && s.t.cur.activeEnd.Some?
    requires s.t.cur.activeEnd.value.endIndex < |s.t.cur.paths[i].nodeIds|
  {
    var ids := s.t.cur.paths[i].nodeIds;
    var end := s.t.cur.activeEnd.value.endIndex;
    && (r.fault.Some? ==> r.state == s && r.fault.value.NoRoute? && Refused(s.t.cur.edges, ids, id, end))
    && (r.fault.None? ==>
          && EditedAt(s, r.state, i, id)
          && EditSound(s.t.cur.edges, ids, id, end, r.state.t.cur.paths[i].nodeIds, r.state.t.cur.activeEnd.value.endIndex))
  }

  /**
   * The editing branch of the shift-click handler: `applyPathEdit` on the
   * active path `i` at its active end; only a successful edit records a
   * snapshot, a failed one raises the "no path in graph" toast.
   */
  method EditActivePath(s: State, i: nat, id: NodeId) returns (r: Reply)
    requires i < |s.t.cur.paths| && s.t.cur.activePathId == Some(s.t.cur.paths[i].pathId)
    requires s.t.cur.activeEnd.Some? && s.t.cur.activeEnd.value.endIndex < |s.t.cur.paths[i].nodeIds|
    ensures EditReply(s, r, i, id)
    ensures r.state == s.(t := r.state.t)
    ensures id in s.t.cur.paths[i].nodeIds ==> r.fault.None?
    ensures Valid(s) && HasNode(s.t.cur.nodes, id) ==> Valid(r.state)
  {
    var ids := s.t.cur.paths[i].nodeIds;
    var endIndex := s.t.cur.activeEnd.value.endIndex;
    var edit := ApplyPathEdit(s.t.cur.nodes, s.t.cur.edges, ids, id, endIndex);
    if edit.None? {
      return Reply(s, Some(NoRoute(ids[endIndex], id)));
    }
    var e := edit.value;
    assert EditFits(s.t.cur.edges, ids, e, id);
    assert EditSound(s.t.cur.edges, ids, id, endIndex, e.nodeIds, e.endIndex);
    WithEditFacts(s, i, e, id);
    if Valid(s) && HasNode(s.t.cur.nodes, id) {
      WithEditValid(s, i, e, id);
    }
    r := Reply(WithEdit(s, i, e, id), None);
  }

  /** What `applyPathEdit` promises about a successful edit of the node list `ids` towards `id`. */
  predicate EditFits(edges: seq<Edge>, ids: seq<NodeId>, e: Edit, id: NodeId) {
    && e.endIndex < |e.nodeIds| && e.nodeIds[e.endIndex] == id && AtBoundary(e.nodeIds, e.endIndex)
    && (Connected(edges, ids) ==> Connected(edges, e.nodeIds))
    && (forall v :: v in e.nodeIds ==> v in ids || v in Endpoints(edges))
  }

  /** The state after a successful edit of path `i`: new node list and active end, the target selected when it was on the path. */
  function WithEdit(s: State, i: nat, e: Edit, id: NodeId): State
    requires i < |s.t.cur.paths|
  {
    var cur := s.t.cur;
    var path := cur.paths[i];
    Commit(s, cur.(paths := cur.paths[i := path.(nodeIds := e.nodeIds)],
                   activeEnd := Some(AppendEnd(path.pathId, e.endIndex)),
                   selected := if id in path.nodeIds then Some(id) else cur.selected))
  }

  lemma WithEditFacts(s: State, i: nat, e: Edit, id: NodeId)
    requires i < |s.t.cur.paths| && s.t.cur.activePathId == Some(s.t.cur.paths[i].pathId)
    requires EditFits(s.t.cur.edges, s.t.cur.paths[i].nodeIds, e, id)
    ensures EditedAt(s, WithEdit(s, i, e, id), i, id)
  {
  }

  lemma WithEditValid(s: State, i: nat, e: Edit, id: NodeId)
    requires i < |s.t.cur.paths| && s.t.cur.activePathId == Some(s.t.cur.paths[i].pathId)
    requires EditFits(s.t.cur.edges, s.t.cur.paths[i].nodeIds, e, id)
    requires Valid(s) && HasNode(s.t.cur.nodes, id)
    ensures Valid(WithEdit(s, i, e, id))
  {
    var r := WithEdit(s, i, e, id);
    assert s.t.cur.paths[i] in s.t.cur.paths;
    EditKeepsOk(s.t.cur, i, e.nodeIds, e.endIndex, r.t.cur.selected);
    CommitValid(s, r.t.cur);
  }

  /**
   * The new-path branch of the shift-click handler: a path with a fresh id,
   * the label `Path <count + 1>` and the single node `id` is appended and
   * becomes the active path, with its only node as the active end.
   */
  function BeginPath(s: State, id: NodeId): (r: State)
    ensures r.t.cur.nodes == s.t.cur.nodes && r.t.cur.edges == s.t.cur.edges
    ensures |r.t.cur.paths| == |s.t.cur.paths| + 1 && r.t.cur.paths[..|s.t.cur.paths|] == s.t.cur.paths
    ensures var p := r.t.cur.paths[|s.t.cur.paths|];
            && p.nodeIds == [id] && p.visible && p.labelText == PathLabel(|s.t.cur.paths| + 1)
            && p.pathId !in PathIds(s.t.cur.paths) && s.pathCounter < r.pathCounter
            && r.t.cur.activePathId == Some(p.pathId)
            && r.t.cur.activeEnd == Some(AppendEnd(p.pathId, 0))
    ensures r.t.cur.selected == Some(id) && r.t.cur.draftPathId.None?
    ensures r.t.undo == s.t.undo + [s.t.cur] && r.t.redo == []
    ensures r == s.(t := r.t, pathCounter := r.pathCounter)
  {
    var cur := s.t.cur;
    var (pathId, counter) := FreshId('P', PathIds(cur.paths), s.pathCounter);
    var path := Path(pathId, PathLabel(|cur.paths| + 1), [id], true);
    var next := cur.(paths := cur.paths + [path], activePathId := Some(pathId),
                     activeEnd := Some(AppendEnd(pathId, 0)), selected := Some(id), draftPathId := None);
    Commit(s, next).(pathCounter := counter)
  }

  lemma BeginPathValid(s: State, id: NodeId)
    requires Valid(s) && HasNode(s.t.cur.nodes, id)
    ensures Valid(BeginPath(s, id))
  {
    var cur := s.t.cur;
    var (pathId, counter) := FreshId('P', PathIds(cur.paths), s.pathCounter);
    BeginKeepsOk(cur, pathId, PathLabel(|cur.paths| + 1), id);
    CommitValid(s, BeginPath(s, id).t.cur);
  }

  /**
   * Shift-click on node `id`. While a path is active it edits that path at
   * its active end, recording a snapshot only when the edit succeeds;
   * otherwise it begins a new one-node path. Shift-clicks never change nodes
   * or edges.
   */
  method ShiftClickNode(s: State, id: NodeId) returns (r: Reply)
    requires EndInRange(s.t.cur)
    ensures r.state.t.cur.nodes == s.t.cur.nodes && r.state.t.cur.edges == s.t.cur.edges
    ensures s.image.None? ==> r == Reply(s, None)
    ensures s.image.Some? && Truthy(s.t.cur.activePathId) && s.t.cur.activeEnd.None? ==> r == Reply(s, Some(NeedEndpoint))
    ensures r.fault.Some? ==> r.state == s
    ensures s.image.Some? && Truthy(s.t.cur.activePathId) && r.fault.None? && r.state != s ==>
              && FindPath(s.t.cur.paths, s.t.cur.activePathId.value).Some?
              && EditedAt(s, r.state, FindPath(s.t.cur.paths, s.t.cur.activePathId.value).value, id)
    ensures s.image.Some? && Truthy(s.t.cur.activePathId) && s.t.cur.activeEnd.Some?
            && FindPath(s.t.cur.paths, s.t.cur.activePathId.value).Some? ==>
              EditReply(s, r, FindPath(s.t.cur.paths, s.t.cur.activePathId.value).value, id)
    ensures s.image.Some? && !Truthy(s.t.cur.activePathId) ==> r == Reply(BeginPath(s, id), None)
    ensures r.state == s.(t := r.state.t, pathCounter := r.state.pathCounter)
    ensures Truthy(s.t.cur.activePathId) ==> r.state.pathCounter == s.pathCounter
    ensures Valid(s) && HasNode(s.t.cur.nodes, id) ==> Valid(r.state)
  {
    var cur := s.t.cur;
    if s.image.None? {
      return Reply(s, None);
    }
    if Truthy(cur.activePathId) {
      if cur.activeEnd.None? {
        return Reply(s, Some(NeedEndpoint));
      }
      var found := FindPath(cur.paths, cur.activePathId.value);
      if found.None? {
        return Reply(s, None);
      }
      r := EditActivePath(s, found.value, id);
      return;
    }
    if Valid(s) && HasNode(cur.nodes, id) {
      BeginPathValid(s, id);
    }
    r := Reply(BeginPath(s, id), None);
  }

  /**
   * Right click on node `id`: refused while a path is active, refused with
   * the blocking paths' labels when a path uses the node, otherwise the node
   * and exactly the edges incident to it are removed.
   */
  function RightClickNode(s: State, id: NodeId): (r: Reply)
    ensures s.image.None? ==> r == Reply(s, None)
    ensures s.image.Some? && Truthy(s.t.cur.activePathId) ==> r == Reply(s, Some(GraphEditsLocked))
    ensures s.image.Some? && !Truthy(s.t.cur.activePathId) && id in ProtectedNodes(s.t.cur.paths) ==>
              && r.state == s
              && r.fault == Some(NodeInUse(Labels(PathsUsingNode(s.t.cur.paths, id))))
              && |r.fault.value.blockers| > 0
    ensures s.image.Some? && !Truthy(s.t.cur.activePathId) && id !in ProtectedNodes(s.t.cur.paths) ==>
              && r.fault.None?
              && (forall v :: HasNode(r.state.t.cur.nodes, v) <==> HasNode(s.t.cur.nodes, v) && v != id)
              && (forall e :: e in r.state.t.cur.edges <==> e in s.t.cur.edges && e.a != id && e.b != id)
              && Subsequence(r.state.t.cur.nodes, s.t.cur.nodes) && Subsequence(r.state.t.cur.edges, s.t.cur.edges)
              && r.state.t.cur.paths == s.t.cur.paths
              && r.state.t.cur.selected == (if s.t.cur.selected == Some(id) then None else s.t.cur.selected)
              && r.state.t.cur == s.t.cur.(nodes := r.state.t.cur.nodes, edges := r.state.t.cur.edges,
                                           selected := r.state.t.cur.selected)
              && r.state.t.undo == s.t.undo + [s.t.cur] && r.state.t.redo == []
    ensures r.state == s.(t := r.state.t)
    ensures ProtectedKept(s.t.cur, r.state.t.cur)
  {
    var cur := s.t.cur;
    if s.image.None? then Reply(s, None)
    else if Truthy(cur.activePathId) then Reply(s, Some(GraphEditsLocked))
    else if id in ProtectedNodes(cur.paths) then
      ProtectedNodeHasBlockers(cur.paths, id);
      Reply(s, Some(NodeInUse(Labels(PathsUsingNode(cur.paths, id)))))
    else
      var next := cur.(nodes := RemoveNodeRecord(cur.nodes, id), edges := RemoveIncident(cur.edges, id),
                       selected := if cur.selected == Some(id) then None else cur.selected);
      StepEndsProtected(cur.paths);
      Reply(Commit(s, next), None)
  }

  /**
   * Right click on the edge at index `i`: refused while a path is active,
   * refused with the blocking paths' labels when a path uses its pair,
   * otherwise every edge on that pair is removed.
   */
  function RightClickEdge(s: State, i: nat): (r: Reply)
    requires i < |s.t.cur.edges|
    ensures s.image.None? ==> r == Reply(s, None)
    ensures s.image.Some? && Truthy(s.t.cur.activePathId) ==> r == Reply(s, Some(GraphEditsLocked))
    ensures s.image.Some? && !Truthy(s.t.cur.activePathId) && EdgeKeyOf(s.t.cur.edges[i]) in ProtectedEdges(s.t.cur.paths) ==>
              && r.state == s
              && r.fault == Some(EdgeInUse(Labels(PathsUsingEdge(s.t.cur.paths, EdgeKeyOf(s.t.cur.edges[i])))))
              && |r.fault.value.blockers| > 0
    ensures s.image.Some? && !Truthy(s.t.cur.activePathId) && EdgeKeyOf(s.t.cur.edges[i]) !in ProtectedEdges(s.t.cur.paths) ==>
              var e := s.t.cur.edges[i];
              && r.fault.None?
              && !Linked(r.state.t.cur.edges, e.a, e.b)
              && (forall u, v :: !Joins(e, u, v) ==> (Linked(r.state.t.cur.edges, u, v) <==> Linked(s.t.cur.edges, u, v)))
              && r.state.t.cur == s.t.cur.(edges := r.state.t.cur.edges)
              && r.state.t.undo == s.t.undo + [s.t.cur] && r.state.t.redo == []
    ensures r.state == s.(t := r.state.t)
    ensures ProtectedKept(s.t.cur, r.state.t.cur)
  {
    var cur := s.t.cur;
    var e := cur.edges[i];
    var k := EdgeKeyOf(e);
    if s.image.None? then Reply(s, None)
    else if Truthy(cur.activePathId) then Reply(s, Some(GraphEditsLocked))
    else if k in ProtectedEdges(cur.paths) then
      ProtectedEdgeHasBlockers(cur.paths, k);
      Reply(s, Some(EdgeInUse(Labels(PathsUsingEdge(cur.paths, k)))))
    else
      RemoveKeepsProtected(cur.paths, e);
      Reply(Commit(s, cur.(edges := RemoveEdge(cur.edges, e.a, e.b))), None)
  }

  /** A pair other than an unprotected edge's own pair is unaffected by removing that edge. */
  lemma RemoveKeepsProtected(paths: seq<Path>, e: Edge)
    requires EdgeKeyOf(e) !in ProtectedEdges(paths)
    ensures forall u, v :: Key(u, v) in ProtectedEdges(paths) ==> !Joins(Edge(e.a, e.b), u, v)
  {
    forall u, v | Key(u, v) in ProtectedEdges(paths) ensures !Joins(Edge(e.a, e.b), u, v) {
      KeyEqualIff(e.a, e.b, u, v);
    }
  }

  /** Right click on empty canvas: refused while a path is active, otherwise it clears the selection. */
  function RightClickEmpty(s: State): (r: Reply)
    ensures s.image.None? ==> r == Reply(s, None)
    ensures s.image.Some? && Truthy(s.t.cur.activePathId) ==> r == Reply(s, Some(GraphEditsLocked))
    ensures s.image.Some? && !Truthy(s.t.cur.activePathId) ==>
              r.fault.None? && r.state.t.cur.selected.None? && SameDocument(s, r.state)
              && r.state == s.(t := s.t.(cur := s.t.cur.(selected := None)))
  {
    if s.image.None? then Reply(s, None)
    else if Truthy(s.t.cur.activePathId) then Reply(s, Some(GraphEditsLocked))
    else Reply(Select(s, s.t.cur.(selected := None)), None)
  }

  /** Escape while a path is active drops the active end; the path stays active. */
  function Escape(s: State): (r: State)
    ensures SameDocument(s, r)
    ensures r.t.cur.activePathId == s.t.cur.activePathId
    ensures Truthy(s.t.cur.activePathId) ==> r.t.cur.activeEnd.None?
    ensures r.t.cur == s.t.cur.(activeEnd := r.t.cur.activeEnd)
    ensures !Truthy(s.t.cur.activePathId) ==> r == s
    ensures r == s.(t := r.t)
  {
    if Truthy(s.t.cur.activePathId) then Select(s, s.t.cur.(activeEnd := None)) else s
  }

  /**
   * The pencil button of path `pathId`: it ends editing when that path is
   * active, and otherwise makes it the active path with no end chosen.
   */
  function TogglePencil(s: State, pathId: string): (r: State)
    ensures SameDocument(s, r)
    ensures r.t.cur.activeEnd.None?
    ensures s.t.cur.activePathId == Some(pathId) <==> r.t.cur.activePathId.None?
    ensures s.t.cur.activePathId != Some(pathId) ==> r.t.cur.activePathId == Some(pathId) && r.t.cur.draftPathId.None?
    ensures s.t.cur.activePathId == Some(pathId) ==> r.t.cur.draftPathId == s.t.cur.draftPathId
    ensures r.t.cur == s.t.cur.(activePathId := r.t.cur.activePathId, activeEnd := r.t.cur.activeEnd,
                                draftPathId := r.t.cur.draftPathId)
    ensures r == s.(t := r.t)
  {
    var cur := s.t.cur;
    if cur.activePathId == Some(pathId) then Select(s, cur.(activePathId := None, activeEnd := None))
    else Select(s, cur.(activePathId := Some(pathId), activeEnd := None, draftPathId := None))
  }

  /** The delete button of path `pathId`: the path goes, and editing ends if it was the active one. */
  function DeletePath(s: State, pathId: string): (r: State)
    ensures forall p :: p in r.t.cur.paths <==> p in s.t.cur.paths && p.pathId != pathId
    ensures Subsequence(r.t.cur.paths, s.t.cur.paths)
    ensures r.t.cur.nodes == s.t.cur.nodes && r.t.cur.edges == s.t.cur.edges
    ensures r.t.undo == s.t.undo + [s.t.cur] && r.t.redo == []
    ensures s.t.cur.activePathId == Some(pathId) ==> r.t.cur.activePathId.None? && r.t.cur.activeEnd.None?
    ensures s.t.cur.activePathId != Some(pathId) ==>
              r.t.cur.activePathId == s.t.cur.activePathId && r.t.cur.activeEnd == s.t.cur.activeEnd
    ensures r.t.cur.draftPathId != Some(pathId)
    ensures s.t.cur.draftPathId != Some(pathId) ==> r.t.cur.draftPathId == s.t.cur.draftPathId
    ensures r.t.cur == s.t.cur.(paths := r.t.cur.paths, activePathId := r.t.cur.activePathId,
                                activeEnd := r.t.cur.activeEnd, draftPathId := r.t.cur.draftPathId)
    ensures r == s.(t := r.t)
  {
    var cur := s.t.cur;
    var active := cur.activePathId == Some(pathId);
    var next := cur.(paths := RemovePath(cur.paths, pathId),
                     activePathId := if active then None else cur.activePathId,
                     activeEnd := if active then None else cur.activeEnd,
                     draftPathId := if cur.draftPathId == Some(pathId) then None else cur.draftPathId);
    Commit(s, next)
  }

  /** The eye button of path `pathId`: a snapshot, then the path's visibility flips. */
  function ToggleVisible(s: State, pathId: string): (r: State)
    ensures FindPath(s.t.cur.paths, pathId).None? ==> r == s
    ensures FindPath(s.t.cur.paths, pathId).Some? ==>
              var i := FindPath(s.t.cur.paths, pathId).value;
              && |r.t.cur.paths| == |s.t.cur.paths|
              && r.t.cur.paths[i] == s.t.cur.paths[i].(visible := !s.t.cur.paths[i].visible)
              && (forall j :: 0 <= j < |s.t.cur.paths| && j != i ==> r.t.cur.paths[j] == s.t.cur.paths[j])
              && r.t.cur == s.t.cur.(paths := r.t.cur.paths)
              && r.t.undo == s.t.undo + [s.t.cur] && r.t.redo == []
    ensures r == s.(t := r.t)
  {
    var cur := s.t.cur;
    match FindPath(cur.paths, pathId)
    case None => s
    case Some(i) => Commit(s, cur.(paths := cur.paths[i := cur.paths[i].(visible := !cur.paths[i].visible)]))
  }

  /**
   * Committing the label editor of path `pathId`: the trimmed input, or the
   * path id when it trims to nothing, becomes the label; a snapshot is taken
   * only when the label actually changes.
   */
  function CommitLabel(s: State, pathId: string, input: string): (r: State)
    ensures FindPath(s.t.cur.paths, pathId).None? ==> r == s
    ensures |r.t.cur.paths| == |s.t.cur.paths| && r.t.cur == s.t.cur.(paths := r.t.cur.paths)
    ensures FindPath(s.t.cur.paths, pathId).Some? ==>
              var i := FindPath(s.t.cur.paths, pathId).value;
              && r.t.cur.paths[i] == s.t.cur.paths[i].(labelText := r.t.cur.paths[i].labelText)
              && (forall j :: 0 <= j < |s.t.cur.paths| && j != i ==> r.t.cur.paths[j] == s.t.cur.paths[j])
    ensures FindPath(s.t.cur.paths, pathId).Some? ==>
              var i := FindPath(s.t.cur.paths, pathId).value;
              var title := r.t.cur.paths[i].labelText;
              && (title == s.t.cur.paths[i].labelText ==> r == s)
              && (title != s.t.cur.paths[i].labelText ==> r.t.undo == s.t.undo + [s.t.cur] && r.t.redo == [])
    ensures FindPath(s.t.cur.paths, pathId).Some? ==>
              var title := r.t.cur.paths[FindPath(s.t.cur.paths, pathId).value].labelText;
              && ((forall c :: c in input ==> IsSpace(c)) ==> title == pathId)
              && ((exists c :: c in input && !IsSpace(c)) ==> title == Trim(input) && title != [])
    ensures r == s.(t := r.t)
  {
    var cur := s.t.cur;
    match FindPath(cur.paths, pathId)
    case None => s
    case Some(i) =>
      var title := LabelOrFallback(input, cur.paths[i].pathId);
      if title == cur.paths[i].labelText then s
      else Commit(s, cur.(paths := cur.paths[i := cur.paths[i].(labelText := title)]))
  }

  /** Ctrl+Z. */
  function UndoEdit(s: State): (r: State)
    ensures |s.t.undo| == 0 ==> r == s
    ensures |s.t.undo| > 0 ==> r.t.cur == s.t.undo[|s.t.undo| - 1] && RedoEdit(r) == s
    ensures |s.t.undo| > 0 ==> r.t.undo == s.t.undo[..|s.t.undo| - 1] && r.t.redo == s.t.redo + [s.t.cur]
    ensures r == s.(t := r.t)
  {
    s.(t := Undo(s.t))
  }

  /** Ctrl+Y. */
  function RedoEdit(s: State): (r: State)
    ensures |s.t.redo| == 0 ==> r == s
    ensures |s.t.redo| > 0 ==> r.t.cur == s.t.redo[|s.t.redo| - 1]
    ensures |s.t.redo| > 0 ==> r.t.redo == s.t.redo[..|s.t.redo| - 1] && r.t.undo == s.t.undo + [s.t.cur]
    ensures r == s.(t := r.t)
  {
    s.(t := Redo(s.t))
  }
}

=== FILE: graph.dfy ===
/**
 * The graph store: nodes, unweighted undirected edges `{a, b}` and the
 * primitive edits on them (`edgeKey`, `findEdge`, `addEdge`, `removeEdge`,
 * `toggleEdge`, and the node removal of the right-click handler).
 */
module GraphStore {
  import opened Wrappers

  type NodeId = string

  /** Node coordinates are opaque image-space values; no geometry is modelled. */
  datatype Node = Node(id: NodeId, labelText: string, x: real, y: real)

  datatype Edge = Edge(a: NodeId, b: NodeId)

  /** `edgeKey(a, b)`: the unordered pair of endpoints. */
  type EdgeKey = set<NodeId>

  function Key(a: NodeId, b: NodeId): EdgeKey {
    {a, b}
  }

  function EdgeKeyOf(e: Edge): EdgeKey {
    Key(e.a, e.b)
  }

  /** Edge `e` connects `u` and `v`, in either orientation. */
  predicate Joins(e: Edge, u: NodeId, v: NodeId) {
    (e.a == u && e.b == v) || (e.a == v && e.b == u)
  }

  /** Two pairs have the same key exactly when they are the same unordered pair. */
  lemma KeyEqualIff(a: NodeId, b: NodeId, c: NodeId, d: NodeId)
    ensures Key(a, b) == Key(c, d) <==> (a == c && b == d) || (a == d && b == c)
  {
    if Key(a, b) == Key(c, d) {
      assert a in Key(c, d) && b in Key(c, d);
      assert c in Key(a, b) && d in Key(a, b);
    }
  }

  /** Matching by key, as `findEdge` does, is matching by `Joins`. */
  lemma JoinsIffSameKey(e: Edge, u: NodeId, v: NodeId)
    ensures Joins(e, u, v) <==> EdgeKeyOf(e) == Key(u, v)
  {
    KeyEqualIff(e.a, e.b, u, v);
  }

  /** Some edge of the list connects `u` and `v`. */
  predicate Linked(edges: seq<Edge>, u: NodeId, v: NodeId) {
    exists i :: 0 <= i < |edges| && Joins(edges[i], u, v)
  }

  function NodeIds(nodes: seq<Node>): (ids: seq<NodeId>)
    ensures |ids| == |nodes|
    ensures forall i :: 0 <= i < |nodes| ==> ids[i] == nodes[i].id
  {
    if |nodes| == 0 then [] else [nodes[0].id] + NodeIds(nodes[1..])
  }

  predicate HasNode(nodes: seq<Node>, id: NodeId) {
    exists i :: 0 <= i < |nodes| && nodes[i].id == id
  }

  lemma HasNodeIffInIds(nodes: seq<Node>, id: NodeId)
    ensures HasNode(nodes, id) <==> id in NodeIds(nodes)
  {
    if id in NodeIds(nodes) {
      var i :| 0 <= i < |nodes| && NodeIds(nodes)[i] == id;
    }
  }

  predicate UniqueNodeIds(nodes: seq<Node>) {
    forall i, j :: 0 <= i < j < |nodes| ==> nodes[i].id != nodes[j].id
  }

  predicate NoSelfLoops(edges: seq<Edge>) {
    forall i :: 0 <= i < |edges| ==> edges[i].a != edges[i].b
  }

  /** At most one edge per unordered pair. */
  predicate DistinctPairs(edges: seq<Edge>) {
    forall i, j :: 0 <= i < j < |edges| ==> !Joins(edges[j], edges[i].a, edges[i].b)
  }

  predicate EndpointsExist(nodes: seq<Node>, edges: seq<Edge>) {
    forall i :: 0 <= i < |edges| ==> HasNode(nodes, edges[i].a) && HasNode(nodes, edges[i].b)
  }

  /** The graph is simple: no self-loop and no two edges on the same pair. */
  predicate Simple(edges: seq<Edge>) {
    NoSelfLoops(edges) && DistinctPairs(edges)
  }

  /** The index of the first edge on the pair `{a, b}`, or `|edges|` when there is none. */
  function FirstJoining(edges: seq<Edge>, a: NodeId, b: NodeId): (i: nat)
    ensures i <= |edges|
    ensures forall j :: 0 <= j < i ==> !Joins(edges[j], a, b)
    ensures i < |edges| ==> Joins(edges[i], a, b)
  {
    if |edges| == 0 then 0
    else if Joins(edges[0], a, b) then 0
    else
      var i := FirstJoining(edges[1..], a, b);
      assert forall j :: 1 <= j < |edges| ==> edges[j] == edges[1..][j - 1];
      i + 1
  }

  /** `findEdge(a, b)`: the first edge whose key equals `edgeKey(a, b)`. */
  function FindEdge(edges: seq<Edge>, a: NodeId, b: NodeId): (r: Option<Edge>)
    ensures r.None? <==> !Linked(edges, a, b)
    ensures r.Some? ==> r.value == edges[FirstJoining(edges, a, b)] && Joins(r.value, a, b)
  {
    var i := FirstJoining(edges, a, b);
    if i < |edges| then Some(edges[i]) else None
  }

  /** Edge lookup does not depend on the order of the endpoints. */
  lemma {:induction false} FindEdgeSymmetric(edges: seq<Edge>, a: NodeId, b: NodeId)
    ensures FindEdge(edges, a, b) == FindEdge(edges, b, a)
  {
    FirstJoiningSymmetric(edges, a, b);
  }

  lemma {:induction false} FirstJoiningSymmetric(edges: seq<Edge>, a: NodeId, b: NodeId)
    ensures FirstJoining(edges, a, b) == FirstJoining(edges, b, a)
  {
    if |edges| > 0 && !Joins(edges[0], a, b) {
      FirstJoiningSymmetric(edges[1..], a, b);
    }
  }

  /** `addEdge(a, b)`: refuses self-loops and duplicates, otherwise appends `{a, b}`. */
  function AddEdge(edges: seq<Edge>, a: NodeId, b: NodeId): (r: seq<Edge>)
    ensures a == b ==> r == edges
    ensures a != b && Linked(edges, a, b) ==> r == edges
    ensures a != b && !Linked(edges, a, b) ==> r == edges + [Edge(a, b)]
  {
    if a == b then edges
    else if FindEdge(edges, a, b).None? then edges + [Edge(a, b)]
    else edges
  }

  /** After `addEdge(a, b)` with distinct endpoints the pair is connected. */
  lemma AddEdgeLinks(edges: seq<Edge>, a: NodeId, b: NodeId)
    ensures a != b ==> Linked(AddEdge(edges, a, b), a, b)
  {
    if a != b && !Linked(edges, a, b) {
      assert Joins(AddEdge(edges, a, b)[|edges|], a, b);
    }
  }

  /** `addEdge` keeps the edge list simple. */
  lemma AddEdgeKeepsSimple(edges: seq<Edge>, a: NodeId, b: NodeId)
    ensures Simple(edges) ==> Simple(AddEdge(edges, a, b))
  {
  }

  /** Adding the same pair twice, in either orientation, adds one edge. */
  lemma AddEdgeIdempotent(edges: seq<Edge>, a: NodeId, b: NodeId)
    ensures AddEdge(AddEdge(edges, a, b), b, a) == AddEdge(edges, a, b)
  {
    if a != b {
      AddEdgeLinks(edges, a, b);
      var i :| 0 <= i < |AddEdge(edges, a, b)| && Joins(AddEdge(edges, a, b)[i], a, b);
      assert Joins(AddEdge(edges, a, b)[i], b, a);
    }
  }

  /** `removeEdge(a, b)`: keeps, in order, exactly the edges not on the pair `{a, b}`. */
  function RemoveEdge(edges: seq<Edge>, a: NodeId, b: NodeId): (r: seq<Edge>)
    ensures forall e :: e in r <==> e in edges && !Joins(e, a, b)
    ensures Subsequence(r, edges)
    ensures !Linked(r, a, b)
    ensures forall u, v :: !Joins(Edge(a, b), u, v) ==> (Linked(r, u, v) <==> Linked(edges, u, v))
    ensures Simple(edges) ==> Simple(r)
  {
    if |edges| == 0 then []
    else
      var rest := RemoveEdge(edges[1..], a, b);
      TailSimple(edges);
      assert forall e :: e in edges <==> e == edges[0] || e in edges[1..];
      LinkedCons(edges);
      if Joins(edges[0], a, b) then
        assert Subsequence(rest, edges);
        rest
      else
        ConsKeepsSimple(edges, rest);
        var r := [edges[0]] + rest;
        LinkedCons(r);
        assert r[1..] == rest;
        r
  }

  /** Dropping the first edge keeps a list simple. */
  lemma TailSimple(edges: seq<Edge>)
    requires |edges| > 0
    ensures Simple(edges) ==> Simple(edges[1..])
  {
    assert forall i :: 0 <= i < |edges| - 1 ==> edges[1..][i] == edges[i + 1];
  }

  /** Putting the head back in front of a simple list drawn from the tail keeps the list simple. */
  lemma ConsKeepsSimple(edges: seq<Edge>, rest: seq<Edge>)
    requires |edges| > 0
    requires forall x :: x in rest ==> x in edges[1..]
    requires Simple(edges[1..]) ==> Simple(rest)
    ensures Simple(edges) ==> Simple([edges[0]] + rest)
  {
    if Simple(edges) {
      var r := [edges[0]] + rest;
      assert Simple(edges[1..]);
      forall i, j | 0 <= i < j < |r| ensures !Joins(r[j], r[i].a, r[i].b) {
        if i == 0 {
          assert r[j] in edges[1..];
          var k :| 0 <= k < |edges[1..]| && edges[1..][k] == r[j];
          assert r[j] == edges[k + 1];
        } else {
          assert r[i] == rest[i - 1] && r[j] == rest[j - 1];
        }
      }
      assert forall i :: 1 <= i < |r| ==> r[i] == rest[i - 1];
    }
  }

  /** How `Linked` unfolds on a non-empty list. */
  lemma LinkedCons(edges: seq<Edge>)
    requires |edges| > 0
    ensures forall u, v :: Linked(edges, u, v) <==> Joins(edges[0], u, v) || Linked(edges[1..], u, v)
  {
    forall u, v
      ensures Linked(edges, u, v) <==> Joins(edges[0], u, v) || Linked(edges[1..], u, v)
    {
      if Linked(edges, u, v) && !Joins(edges[0], u, v) {
        var i :| 0 <= i < |edges| && Joins(edges[i], u, v);
        assert Joins(edges[1..][i - 1], u, v);
      }
      if Linked(edges[1..], u, v) {
        var i :| 0 <= i < |edges[1..]| && Joins(edges[1..][i], u, v);
        assert Joins(edges[i + 1], u, v);
      }
    }
  }

  /** How `Linked` unfolds on a list with one edge appended. */
  lemma LinkedSnoc(edges: seq<Edge>, e: Edge)
    ensures forall u, v :: Linked(edges + [e], u, v) <==> Linked(edges, u, v) || Joins(e, u, v)
  {
    forall u, v
      ensures Linked(edges + [e], u, v) <==> Linked(edges, u, v) || Joins(e, u, v)
    {
      if Linked(edges, u, v) {
        var i :| 0 <= i < |edges| && Joins(edges[i], u, v);
        assert Joins((edges + [e])[i], u, v);
      }
      if Joins(e, u, v) {
        assert Joins((edges + [e])[|edges|], u, v);
      }
    }
  }

  /** Adding a new pair and then removing it restores the edge list. */
  lemma {:induction false} RemoveAfterAdd(edges: seq<Edge>, a: NodeId, b: NodeId)
    requires a != b && !Linked(edges, a, b)
    ensures RemoveEdge(AddEdge(edges, a, b), a, b) == edges
  {
    RemoveUnlinked(edges, a, b);
    RemoveEdgeAppend(edges, Edge(a, b), a, b);
  }

  /** Removing a pair that no edge is on changes nothing. */
  lemma {:induction false} RemoveUnlinked(edges: seq<Edge>, a: NodeId, b: NodeId)
    requires !Linked(edges, a, b)
    ensures RemoveEdge(edges, a, b) == edges
  {
    if |edges| > 0 {
      LinkedCons(edges);
      RemoveUnlinked(edges[1..], a, b);
    }
  }

  lemma {:induction false} RemoveEdgeAppend(edges: seq<Edge>, e: Edge, a: NodeId, b: NodeId)
    ensures RemoveEdge(edges + [e], a, b)
         == RemoveEdge(edges, a, b) + (if Joins(e, a, b) then [] else [e])
  {
    if |edges| > 0 {
      assert (edges + [e])[1..] == edges[1..] + [e];
      RemoveEdgeAppend(edges[1..], e, a, b);
    }
  }

  /** The edges that survive deleting node `id`: those not incident to it. */
  function RemoveIncident(edges: seq<Edge>, id: NodeId): (r: seq<Edge>)
    ensures forall e :: e in r <==> e in edges && e.a != id && e.b != id
    ensures Subsequence(r, edges)
    ensures forall u, v :: u != id && v != id ==> (Linked(r, u, v) <==> Linked(edges, u, v))
    ensures Simple(edges) ==> Simple(r)
  {
    if |edges| == 0 then []
    else
      var rest := RemoveIncident(edges[1..], id);
      TailSimple(edges);
      assert forall e :: e in edges <==> e == edges[0] || e in edges[1..];
      LinkedCons(edges);
      if edges[0].a == id || edges[0].b == id then
        assert Subsequence(rest, edges);
        rest
      else
        ConsKeepsSimple(edges, rest);
        var r := [edges[0]] + rest;
        LinkedCons(r);
        assert r[1..] == rest;
        r
  }

  /** The node list without node `id`, order kept. */
  function RemoveNodeRecord(nodes: seq<Node>, id: NodeId): (r: seq<Node>)
    ensures forall n :: n in r <==> n in nodes && n.id != id
    ensures Subsequence(r, nodes)
    ensures forall v :: HasNode(r, v) <==> HasNode(nodes, v) && v != id
    ensures UniqueNodeIds(nodes) ==> UniqueNodeIds(r)
  {
    if |nodes| == 0 then []
    else
      var rest := RemoveNodeRecord(nodes[1..], id);
      assert forall n :: n in nodes <==> n == nodes[0] || n in nodes[1..];
      HasNodeCons(nodes);
      if nodes[0].id == id then
        assert Subsequence(rest, nodes);
        rest
      else
        var r := [nodes[0]] + rest;
        HasNodeCons(r);
        assert r[1..] == rest;
        r
  }

  lemma HasNodeCons(nodes: seq<Node>)
    requires |nodes| > 0
    ensures forall v :: HasNode(nodes, v) <==> nodes[0].id == v || HasNode(nodes[1..], v)
  {
    forall v
      ensures HasNode(nodes, v) <==> nodes[0].id == v || HasNode(nodes[1..], v)
    {
      if HasNode(nodes, v) && nodes[0].id != v {
        var i :| 0 <= i < |nodes| && nodes[i].id == v;
        assert nodes[1..][i - 1].id == v;
      }
      if HasNode(nodes[1..], v) {
        var i :| 0 <= i < |nodes[1..]| && nodes[1..][i].id == v;
        assert nodes[i + 1].id == v;
      }
    }
  }

  /** Outcome of `toggleEdge`: the new edge list, or a refusal because the edge is protected. */
  datatype Toggle = Toggled(edges: seq<Edge>) | Protected

  /**
   * `toggleEdge(a, b)`: an existing edge is removed unless its key is
   * protected (then nothing changes); a missing one is added.
   */
  function ToggleEdge(edges: seq<Edge>, protectedKeys: set<EdgeKey>, a: NodeId, b: NodeId): (r: Toggle)
    ensures r.Protected? <==> Linked(edges, a, b) && Key(a, b) in protectedKeys
    ensures r.Toggled? && Linked(edges, a, b) ==> !Linked(r.edges, a, b)
    ensures r.Toggled? && !Linked(edges, a, b) && a != b ==> Linked(r.edges, a, b) && |r.edges| == |edges| + 1
    ensures r.Toggled? && !Linked(edges, a, b) && a == b ==> r.edges == edges
    ensures r.Toggled? ==> forall u, v :: !Joins(Edge(a, b), u, v) ==> (Linked(r.edges, u, v) <==> Linked(edges, u, v))
    ensures r.Toggled? && Simple(edges) ==> Simple(r.edges)
  {
    if FindEdge(edges, a, b).Some? then
      if Key(a, b) in protectedKeys then Protected else Toggled(RemoveEdge(edges, a, b))
    else
      AddEdgeLinks(edges, a, b);
      AddEdgeKeepsSimple(edges, a, b);
      LinkedSnoc(edges, Edge(a, b));
      Toggled(AddEdge(edges, a, b))
  }

  /** The edge list after `toggleEdge`; a refused toggle leaves it as it was. */
  function EdgesAfterToggle(edges: seq<Edge>, protectedKeys: set<EdgeKey>, a: NodeId, b: NodeId): seq<Edge> {
    match ToggleEdge(edges, protectedKeys, a, b)
    case Toggled(r) => r
    case Protected => edges
  }

  /** A toggle removes edges or adds the edge `{a, b}`, nothing else. */
  lemma ToggleMembers(edges: seq<Edge>, protectedKeys: set<EdgeKey>, a: NodeId, b: NodeId)
    ensures forall e :: e in EdgesAfterToggle(edges, protectedKeys, a, b) ==> e in edges || e == Edge(a, b)
  {
  }

  /** A toggle never removes an edge whose pair is protected. */
  lemma ToggleKeepsProtected(edges: seq<Edge>, protectedKeys: set<EdgeKey>, a: NodeId, b: NodeId)
    ensures forall u, v :: Key(u, v) in protectedKeys && Linked(edges, u, v) ==>
              Linked(EdgesAfterToggle(edges, protectedKeys, a, b), u, v)
  {
    forall u, v | Key(u, v) in protectedKeys && Linked(edges, u, v)
      ensures Linked(EdgesAfterToggle(edges, protectedKeys, a, b), u, v)
    {
      KeyEqualIff(a, b, u, v);
    }
  }

  /** A toggle keeps the edge list simple. */
  lemma ToggleKeepsSimple(edges: seq<Edge>, protectedKeys: set<EdgeKey>, a: NodeId, b: NodeId)
    requires Simple(edges)
    ensures Simple(EdgesAfterToggle(edges, protectedKeys, a, b))
  {
  }
}

=== FILE: history.dfy ===
/**
 * The snapshot history: `captureSnapshot` copies the document and the
 * session fields, `pushSnapshot` records one and empties the redo stack,
 * and `undo`/`redo` move the current state between the two stacks.
 * Snapshots are values, so the deep copies of the source need no modelling.
 */
module History {
  import opened Wrappers
  import opened GraphStore
  import opened PathRegistry

  /** JavaScript truthiness of an optional id: `null` and `""` are false. */
  predicate Truthy(o: Option<string>) {
    o.Some? && o.value != ""
  }

  /** `activeAppendEnd`: which end of which path the next edit extends. */
  datatype AppendEnd = AppendEnd(pathId: string, endIndex: nat)

  /** Everything `captureSnapshot` records; `None` stands for `null`. */
  datatype Snapshot = Snapshot(
    nodes: seq<Node>,
    edges: seq<Edge>,
    paths: seq<Path>,
    selected: Option<NodeId>,
    activePathId: Option<string>,
    activeEnd: Option<AppendEnd>,
    draftPathId: Option<string>)

  /** The current snapshot with the undo and redo stacks; the top of a stack is its last element. */
  datatype Timeline = Timeline(cur: Snapshot, undo: seq<Snapshot>, redo: seq<Snapshot>)

  /** `pushSnapshot(snap)`: record `snap` for undo; any redo history is dropped. */
  function Push(t: Timeline, snap: Snapshot): (r: Timeline)
    ensures r.cur == t.cur
    ensures r.undo == t.undo + [snap]
    ensures r.redo == []
  {
    Timeline(t.cur, t.undo + [snap], [])
  }

  /** `saveSnapshot`: record the current state before changing it. */
  function Save(t: Timeline): (r: Timeline)
    ensures |r.undo| > 0 && r.undo[|r.undo| - 1] == t.cur
    ensures r.redo == []
  {
    Push(t, t.cur)
  }

  /** `redo`: the top of the redo stack becomes current, the current state goes onto the undo stack. */
  function Redo(t: Timeline): (r: Timeline)
    ensures |t.redo| == 0 ==> r == t
    ensures |t.redo| > 0 ==> r.cur == t.redo[|t.redo| - 1] && |r.undo| > 0 && r.undo[|r.undo| - 1] == t.cur
    ensures |r.undo| + |r.redo| == |t.undo| + |t.redo|
  {
    if |t.redo| == 0 then t
    else Timeline(t.redo[|t.redo| - 1], t.undo + [t.cur], t.redo[..|t.redo| - 1])
  }

  /**
   * `undo`: the top of the undo stack becomes current, the current state goes
   * onto the redo stack, so an immediate redo brings it back.
   */
  function Undo(t: Timeline): (r: Timeline)
    ensures |t.undo| == 0 ==> r == t
    ensures |t.undo| > 0 ==> r.cur == t.undo[|t.undo| - 1] && |r.redo| > 0 && r.redo[|r.redo| - 1] == t.cur
    ensures |r.undo| + |r.redo| == |t.undo| + |t.redo|
    ensures |t.undo| > 0 ==> Redo(r) == t
  {
    if |t.undo| == 0 then t
    else
      var r := Timeline(t.undo[|t.undo| - 1], t.undo[..|t.undo| - 1], t.redo + [t.cur]);
      assert r.undo + [r.cur] == t.undo;
      r
  }

  /** An undo right after a redo brings the state back. */
  lemma UndoAfterRedo(t: Timeline)
    requires |t.redo| > 0
    ensures Undo(Redo(t)) == t
  {
    assert t.redo[..|t.redo| - 1] + [t.redo[|t.redo| - 1]] == t.redo;
  }

  /** Undoing a recorded edit restores the snapshot taken before it and offers the edit for redo. */
  lemma UndoAfterPush(t: Timeline, snap: Snapshot, after: Snapshot)
    ensures Undo(Push(t, snap).(cur := after)) == Timeline(snap, t.undo, [after])
  {
  }
}

=== FILE: ids.dfy ===
/**
 * Generated ids: `N<n>` for nodes and `P<n>` for paths (`createNodeId`,
 * `createPathId`), and the counter recovery done on import
 * (`computeNextCounter`).
 */
module Ids {
  import opened Text

  /** The id built from a prefix letter and a counter, as in `` `N${state.nodeCounter}` ``. */
  function Format(prefix: char, n: nat): string {
    [prefix] + Decimal(n)
  }

  /** The shape matched by `^<prefix>(\d+)$`. */
  predicate HasCounterForm(id: string, prefix: char) {
    |id| >= 2 && id[0] == prefix && AllDigits(id[1..])
  }

  /** `Number(match[1])` for an id of counter form. */
  function CounterOf(id: string, prefix: char): nat
    requires HasCounterForm(id, prefix)
  {
    ParseDecimal(id[1..])
  }

  /** Every generated id has counter form and reads back as its counter. */
  lemma FormatReadsBack(prefix: char, n: nat)
    ensures HasCounterForm(Format(prefix, n), prefix)
    ensures CounterOf(Format(prefix, n), prefix) == n
  {
    assert Format(prefix, n)[1..] == Decimal(n);
    ParseDecimalOfDecimal(n);
  }

  /** Distinct counters give distinct ids. */
  lemma FormatInjective(prefix: char, m: nat, n: nat)
    requires Format(prefix, m) == Format(prefix, n)
    ensures m == n
  {
    FormatReadsBack(prefix, m);
    FormatReadsBack(prefix, n);
  }

  /** The running maximum of the `forEach` in `computeNextCounter`, starting from `acc`. */
  function MaxCounter(ids: seq<string>, prefix: char, acc: nat): (r: nat)
    ensures acc <= r
    ensures forall i :: 0 <= i < |ids| && HasCounterForm(ids[i], prefix) ==> CounterOf(ids[i], prefix) <= r
    ensures r == acc || exists i :: 0 <= i < |ids| && HasCounterForm(ids[i], prefix) && CounterOf(ids[i], prefix) == r
  {
    if |ids| == 0 then acc
    else
      var acc' := if HasCounterForm(ids[0], prefix) && CounterOf(ids[0], prefix) > acc then CounterOf(ids[0], prefix) else acc;
      var r := MaxCounter(ids[1..], prefix, acc');
      assert forall i :: 1 <= i < |ids| ==> ids[i] == ids[1..][i - 1];
      r
  }

  /**
   * `computeNextCounter(ids, prefix)`: one more than the largest counter among
   * the ids of counter form, or 1 when there is none.
   */
  function NextCounter(ids: seq<string>, prefix: char): (r: nat)
    ensures 1 <= r
    ensures forall i :: 0 <= i < |ids| && HasCounterForm(ids[i], prefix) ==> CounterOf(ids[i], prefix) < r
    ensures r == 1 || exists i :: 0 <= i < |ids| && HasCounterForm(ids[i], prefix) && CounterOf(ids[i], prefix) == r - 1
  {
    MaxCounter(ids, prefix, 0) + 1
  }

  /** An id already taken bounds its counter below `NextCounter`. */
  lemma TakenBelowNext(prefix: char, taken: seq<string>, n: nat)
    requires Format(prefix, n) in taken
    ensures n < NextCounter(taken, prefix)
  {
    FormatReadsBack(prefix, n);
    var i :| 0 <= i < |taken| && taken[i] == Format(prefix, n);
  }

  /**
   * `createNodeId` / `createPathId`: starting at `counter`, skip every id that
   * is taken, return the first free one and the counter advanced past it.
   */
  function FreshId(prefix: char, taken: seq<string>, counter: nat): (r: (string, nat))
    ensures r.0 !in taken
    ensures counter < r.1
    ensures r.0 == Format(prefix, r.1 - 1)
    ensures forall k :: counter <= k < r.1 - 1 ==> Format(prefix, k) in taken
    decreases NextCounter(taken, prefix) - counter
  {
    var id := Format(prefix, counter);
    if id in taken then
      TakenBelowNext(prefix, taken, counter);
      FreshId(prefix, taken, counter + 1)
    else
      (id, counter + 1)
  }

  /**
   * After an import the counter resumes above every imported counter, so the
   * first generated id is produced without skipping.
   */
  lemma {:induction false} FreshAfterImport(prefix: char, taken: seq<string>)
    ensures FreshId(prefix, taken, NextCounter(taken, prefix)).1 == NextCounter(taken, prefix) + 1
  {
    var n := NextCounter(taken, prefix);
    if Format(prefix, n) in taken {
      TakenBelowNext(prefix, taken, n);
    }
  }
}

=== FILE: invariant.dfy ===
/**
 * The consistency every reachable snapshot keeps: a simple graph whose
 * edges join existing nodes, paths whose consecutive nodes are joined by
 * edges, and session fields that point at existing nodes and paths with the
 * active end at one of the two ends of the active path.
 */
module Invariant {
  import opened Wrappers
  import opened GraphStore
  import opened PathRegistry
  import opened Route
  import opened PathEdit
  import opened History

  /** Unique node ids, a simple edge list, and every edge endpoint a node. */
  predicate GraphOk(nodes: seq<Node>, edges: seq<Edge>) {
    UniqueNodeIds(nodes) && Simple(edges) && EndpointsExist(nodes, edges)
  }

  /** Unique path ids, every step of every path an edge, every path node a node. */
  predicate PathsOk(nodes: seq<Node>, edges: seq<Edge>, paths: seq<Path>) {
    && UniquePathIds(paths)
    && (forall p :: p in paths ==> Connected(edges, p.nodeIds))
    && (forall v :: v in ProtectedNodes(paths) ==> HasNode(nodes, v))
  }

  /** The active end belongs to the active path and sits at one of its two ends. */
  predicate EndOk(paths: seq<Path>, active: Option<string>, end: AppendEnd) {
    && active == Some(end.pathId)
    && exists p :: p in paths && p.pathId == end.pathId && end.endIndex < |p.nodeIds| && AtBoundary(p.nodeIds, end.endIndex)
  }

  /** The selection and the active path exist, the active end is well placed, and no draft is pending. */
  predicate SessionOk(s: Snapshot) {
    && (s.selected.Some? ==> HasNode(s.nodes, s.selected.value))
    && (s.activePathId.Some? ==> HasPath(s.paths, s.activePathId.value))
    && (s.activeEnd.Some? ==> EndOk(s.paths, s.activePathId, s.activeEnd.value))
    && s.draftPathId.None?
  }

  predicate SnapshotOk(s: Snapshot) {
    GraphOk(s.nodes, s.edges) && PathsOk(s.nodes, s.edges, s.paths) && SessionOk(s)
  }

  /** Every protected node that had a record still has one, and every edge on a protected pair is still there. */
  ghost predicate ProtectedKept(before: Snapshot, after: Snapshot) {
    && (forall v :: v in ProtectedNodes(before.paths) && HasNode(before.nodes, v) ==> HasNode(after.nodes, v))
    && (forall u, v :: Key(u, v) in ProtectedEdges(before.paths) && Linked(before.edges, u, v) ==> Linked(after.edges, u, v))
  }

  /** Both ends of a protected pair are protected nodes. */
  lemma StepEndsProtected(paths: seq<Path>)
    ensures forall u, v :: Key(u, v) in ProtectedEdges(paths) ==> u in ProtectedNodes(paths) && v in ProtectedNodes(paths)
  {
    forall u, v | Key(u, v) in ProtectedEdges(paths)
      ensures u in ProtectedNodes(paths) && v in ProtectedNodes(paths)
    {
      var p, i :| p in paths && 0 <= i < |p.nodeIds| - 1 && StepKey(p.nodeIds, i) == Key(u, v);
      KeyEqualIff(u, v, p.nodeIds[i], p.nodeIds[i + 1]);
      assert p.nodeIds[i] in p.nodeIds && p.nodeIds[i + 1] in p.nodeIds;
    }
  }

  /** Keeping the protected nodes and edges keeps the paths consistent. */
  lemma KeptPathsOk(before: Snapshot, after: Snapshot)
    requires PathsOk(before.nodes, before.edges, before.paths)
    requires after.paths == before.paths && ProtectedKept(before, after)
    ensures PathsOk(after.nodes, after.edges, after.paths)
  {
    forall p | p in after.paths ensures Connected(after.edges, p.nodeIds) {
      forall i | 0 <= i < |p.nodeIds| - 1 ensures Linked(after.edges, p.nodeIds[i], p.nodeIds[i + 1]) {
        assert StepKey(p.nodeIds, i) in ProtectedEdges(before.paths);
      }
    }
  }

  /** Edges drawn from a list whose endpoints are nodes have nodes as endpoints. */
  lemma FewerEdges(nodes: seq<Node>, edges: seq<Edge>, fewer: seq<Edge>)
    requires EndpointsExist(nodes, edges)
    requires forall e :: e in fewer ==> e in edges
    ensures EndpointsExist(nodes, fewer)
  {
    forall i | 0 <= i < |fewer| ensures HasNode(nodes, fewer[i].a) && HasNode(nodes, fewer[i].b) {
      assert fewer[i] in edges;
    }
  }

  /** Every edge endpoint is a node. */
  lemma EndpointsAreNodes(nodes: seq<Node>, edges: seq<Edge>)
    requires EndpointsExist(nodes, edges)
    ensures forall v :: v in Endpoints(edges) ==> HasNode(nodes, v)
  {
    EndpointsIff(edges);
  }

  lemma HasNodeAppend(nodes: seq<Node>, n: Node)
    ensures forall v :: HasNode(nodes + [n], v) <==> HasNode(nodes, v) || v == n.id
  {
    forall v ensures HasNode(nodes + [n], v) <==> HasNode(nodes, v) || v == n.id {
      if HasNode(nodes, v) {
        var i :| 0 <= i < |nodes| && nodes[i].id == v;
        assert (nodes + [n])[i].id == v;
      }
      if v == n.id {
        assert (nodes + [n])[|nodes|].id == v;
      }
    }
  }

  /**
   * With the document consistent, `FindPath` finds the path the active end
   * names, and the end's index lies inside that path.
   */
  lemma ActiveEndFound(s: Snapshot)
    requires SnapshotOk(s) && s.activeEnd.Some?
    ensures s.activePathId.Some? && FindPath(s.paths, s.activePathId.value).Some?
    ensures var p := s.paths[FindPath(s.paths, s.activePathId.value).value];
            s.activeEnd.value.endIndex < |p.nodeIds| && AtBoundary(p.nodeIds, s.activeEnd.value.endIndex)
  {
    var end := s.activeEnd.value;
    var p :| p in s.paths && p.pathId == end.pathId && end.endIndex < |p.nodeIds| && AtBoundary(p.nodeIds, end.endIndex);
    var j :| 0 <= j < |s.paths| && s.paths[j] == p;
    var i := FindPath(s.paths, end.pathId).value;
    assert i == j;
  }

  /**
   * Replacing the active path's node list by a connected list of path nodes
   * and edge endpoints, with the active end at one of its ends, keeps the
   * snapshot consistent.
   */
  lemma EditKeepsOk(s: Snapshot, i: nat, ids: seq<NodeId>, k: nat, selected: Option<NodeId>)
    requires SnapshotOk(s) && i < |s.paths| && s.activePathId == Some(s.paths[i].pathId)
    requires Connected(s.edges, ids) && k < |ids| && AtBoundary(ids, k)
    requires forall v :: v in ids ==> v in s.paths[i].nodeIds || v in Endpoints(s.edges)
    requires selected.Some? ==> HasNode(s.nodes, selected.value)
    ensures SnapshotOk(s.(paths := s.paths[i := s.paths[i].(nodeIds := ids)],
                          activeEnd := Some(AppendEnd(s.paths[i].pathId, k)), selected := selected))
  {
    var paths := s.paths[i := s.paths[i].(nodeIds := ids)];
    var next := s.(paths := paths, activeEnd := Some(AppendEnd(s.paths[i].pathId, k)), selected := selected);
    assert s.paths[i] in s.paths;
    forall p | p in paths ensures Connected(s.edges, p.nodeIds) {
      var j :| 0 <= j < |paths| && paths[j] == p;
      if j != i {
        assert s.paths[j] in s.paths;
      }
    }
    EndpointsAreNodes(s.nodes, s.edges);
    forall v | v in ProtectedNodes(paths) ensures HasNode(s.nodes, v) {
      var p :| p in paths && v in p.nodeIds;
      var j :| 0 <= j < |paths| && paths[j] == p;
      assert s.paths[j] in s.paths;
    }
    assert paths[i].pathId == s.paths[i].pathId;
    assert EndOk(paths, next.activePathId, next.activeEnd.value) by {
      assert paths[i] in paths;
    }
  }

  /** Adding a one-node path with an unused id and making it active keeps the snapshot consistent. */
  lemma BeginKeepsOk(s: Snapshot, pathId: string, title: string, id: NodeId)
    requires SnapshotOk(s) && pathId !in PathIds(s.paths) && HasNode(s.nodes, id)
    ensures SnapshotOk(s.(paths := s.paths + [Path(pathId, title, [id], true)], activePathId := Some(pathId),
                          activeEnd := Some(AppendEnd(pathId, 0)), selected := Some(id), draftPathId := None))
  {
    var q := Path(pathId, title, [id], true);
    var paths := s.paths + [q];
    forall p | p in paths ensures Connected(s.edges, p.nodeIds) {
    }
    forall v | v in ProtectedNodes(paths) ensures HasNode(s.nodes, v) {
      var p :| p in paths && v in p.nodeIds;
      if p != q {
        assert p in s.paths;
      }
    }
    assert paths[|s.paths|] == q;
  }

  /**
   * A graph edit that keeps the graph well formed, keeps every protected
   * node and edge, leaves the paths and the path session alone and selects
   * an existing node (or nothing) keeps the snapshot consistent.
   */
  lemma GraphEditKeepsOk(before: Snapshot, after: Snapshot)
    requires SnapshotOk(before) && GraphOk(after.nodes, after.edges) && ProtectedKept(before, after)
    requires after.paths == before.paths && after.activePathId == before.activePathId
    requires after.activeEnd == before.activeEnd && after.draftPathId == before.draftPathId
    requires after.selected.Some? ==> HasNode(after.nodes, after.selected.value)
    ensures SnapshotOk(after)
  {
    KeptPathsOk(before, after);
  }

  /** Toggling the pair of two existing nodes keeps every edge endpoint a node. */
  lemma ToggleEndpointsExist(nodes: seq<Node>, edges: seq<Edge>, keys: set<EdgeKey>, a: NodeId, b: NodeId)
    requires EndpointsExist(nodes, edges) && HasNode(nodes, a) && HasNode(nodes, b)
    ensures EndpointsExist(nodes, EdgesAfterToggle(edges, keys, a, b))
  {
    var r := EdgesAfterToggle(edges, keys, a, b);
    ToggleMembers(edges, keys, a, b);
    forall i | 0 <= i < |r| ensures HasNode(nodes, r[i].a) && HasNode(nodes, r[i].b) {
      assert r[i] in r;
      if r[i] != Edge(a, b) {
        var j :| 0 <= j < |edges| && edges[j] == r[i];
      }
    }
  }
}

=== FILE: laws.dfy ===
/**
 * Every handler keeps the editor state consistent: starting from a valid
 * state (a consistent current snapshot and consistent snapshots on both
 * stacks), each handler of `Editor` ends in a valid state. Together with
 * the shift-click handler's own contract this says that no sequence of
 * edits, undos and redos can leave a path that steps over a missing edge,
 * an edge whose endpoint is gone, or an active end off the active path.
 */
module Laws {
  import opened Wrappers
  import opened GraphStore
  import opened PathRegistry
  import opened Route
  import opened PathEdit
  import opened History
  import opened Invariant
  import opened Editor

  /** Changing only the session fields to a consistent snapshot keeps the state valid. */
  lemma SelectValid(s: State, next: Snapshot)
    requires Valid(s) && SnapshotOk(next)
    ensures Valid(Select(s, next))
  {
  }

  /** Appending a node whose id no node has keeps node ids unique. */
  lemma AppendKeepsUnique(nodes: seq<Node>, n: Node)
    requires UniqueNodeIds(nodes) && !HasNode(nodes, n.id)
    ensures UniqueNodeIds(nodes + [n])
  {
    var r := nodes + [n];
    forall i, j | 0 <= i < j < |r| ensures r[i].id != r[j].id {
      if j == |nodes| {
        assert r[i] == nodes[i];
      }
    }
  }

  /** A left click on empty canvas keeps the state valid. */
  lemma ClickEmptyValid(s: State, x: real, y: real)
    requires Valid(s)
    ensures Valid(ClickEmpty(s, x, y).state)
  {
    var cur := s.t.cur;
    if s.image.Some? && !Truthy(cur.activePathId) && !Outside(s.image.value, x, y) {
      var r := ClickEmpty(s, x, y).state;
      var next := r.t.cur;
      var id := next.selected.value;
      var n := Node(id, id, x, y);
      AppendKeepsUnique(cur.nodes, n);
      HasNodeAppend(cur.nodes, n);
      if Truthy(cur.selected) {
        var from := cur.selected.value;
        FreshNotLinked(cur.nodes, cur.edges, cur.selected, id);
        ToggleKeepsSimple(cur.edges, ProtectedEdges(cur.paths), from, id);
        assert Simple(next.edges);
      }
      assert EndpointsExist(next.nodes, next.edges) by {
        forall i | 0 <= i < |next.edges| ensures HasNode(next.nodes, next.edges[i].a) && HasNode(next.nodes, next.edges[i].b) {
          if i < |cur.edges| {
            assert next.edges[i] == cur.edges[i];
          }
        }
      }
      GraphEditKeepsOk(cur, next);
      CommitValid(s, next);
    }
  }

  /** A left click on an existing node keeps the state valid. */
  lemma ClickNodeValid(s: State, id: NodeId)
    requires Valid(s) && HasNode(s.t.cur.nodes, id)
    ensures Valid(ClickNode(s, id).state)
  {
    var cur := s.t.cur;
    var r := ClickNode(s, id).state;
    if s.image.None? || r == s {
    } else if Truthy(cur.activePathId) {
      var i := FindPath(cur.paths, cur.activePathId.value).value;
      var p := cur.paths[i];
      assert p in cur.paths;
      assert EndOk(r.t.cur.paths, r.t.cur.activePathId, r.t.cur.activeEnd.value);
      SelectValid(s, r.t.cur);
    } else if cur.selected.None? || cur.selected.value == id {
      SelectValid(s, r.t.cur);
    } else {
      var from := cur.selected.value;
      var keys := ProtectedEdges(cur.paths);
      if Linked(cur.edges, from, id) && Key(from, id) in keys {
        SelectValid(s, r.t.cur);
      } else {
        assert r.t.cur.edges == EdgesAfterToggle(cur.edges, keys, from, id);
        ToggleKeepsSimple(cur.edges, keys, from, id);
        ToggleEndpointsExist(cur.nodes, cur.edges, keys, from, id);
        GraphEditKeepsOk(cur, r.t.cur);
        CommitValid(s, r.t.cur);
      }
    }
  }

  /** A right click on a node keeps the state valid. */
  lemma RightClickNodeValid(s: State, id: NodeId)
    requires Valid(s)
    ensures Valid(RightClickNode(s, id).state)
  {
    var cur := s.t.cur;
    if s.image.Some? && !Truthy(cur.activePathId) && id !in ProtectedNodes(cur.paths) {
      var next := RightClickNode(s, id).state.t.cur;
      assert EndpointsExist(next.nodes, next.edges) by {
        forall i | 0 <= i < |next.edges| ensures HasNode(next.nodes, next.edges[i].a) && HasNode(next.nodes, next.edges[i].b) {
          assert next.edges[i] in cur.edges;
        }
      }
      GraphEditKeepsOk(cur, next);
      CommitValid(s, next);
    }
  }

  /** A right click on an edge keeps the state valid. */
  lemma RightClickEdgeValid(s: State, i: nat)
    requires Valid(s) && i < |s.t.cur.edges|
    ensures Valid(RightClickEdge(s, i).state)
  {
    var cur := s.t.cur;
    if s.image.Some? && !Truthy(cur.activePathId) && EdgeKeyOf(cur.edges[i]) !in ProtectedEdges(cur.paths) {
      var next := RightClickEdge(s, i).state.t.cur;
      FewerEdges(cur.nodes, cur.edges, next.edges);
      GraphEditKeepsOk(cur, next);
      CommitValid(s, next);
    }
  }

  /** A right click on empty canvas keeps the state valid. */
  lemma RightClickEmptyValid(s: State)
    requires Valid(s)
    ensures Valid(RightClickEmpty(s).state)
  {
    if s.image.Some? && !Truthy(s.t.cur.activePathId) {
      SelectValid(s, RightClickEmpty(s).state.t.cur);
    }
  }

  /** Escape keeps the state valid. */
  lemma EscapeValid(s: State)
    requires Valid(s)
    ensures Valid(Escape(s))
  {
    SelectValid(s, Escape(s).t.cur);
  }

  /** The pencil button of an existing path keeps the state valid. */
  lemma TogglePencilValid(s: State, pathId: string)
    requires Valid(s) && HasPath(s.t.cur.paths, pathId)
    ensures Valid(TogglePencil(s, pathId))
  {
    SelectValid(s, TogglePencil(s, pathId).t.cur);
  }

  /** Deleting a path keeps the state valid. */
  lemma DeletePathValid(s: State, pathId: string)
    requires Valid(s)
    ensures Valid(DeletePath(s, pathId))
  {
    var cur := s.t.cur;
    var next := DeletePath(s, pathId).t.cur;
    forall v | v in ProtectedNodes(next.paths) ensures HasNode(cur.nodes, v) {
      var p :| p in next.paths && v in p.nodeIds;
      assert p in cur.paths;
    }
    if next.activePathId.Some? {
      var j :| 0 <= j < |cur.paths| && cur.paths[j].pathId == next.activePathId.value;
      assert cur.paths[j] in next.paths;
      var k :| 0 <= k < |next.paths| && next.paths[k] == cur.paths[j];
    }
    if next.activeEnd.Some? {
      var end := next.activeEnd.value;
      var p :| p in cur.paths && p.pathId == end.pathId && end.endIndex < |p.nodeIds| && AtBoundary(p.nodeIds, end.endIndex);
      assert p in next.paths;
    }
    CommitValid(s, next);
  }

  /** Undo keeps the state valid: the restored snapshot was recorded while valid. */
  lemma UndoValid(s: State)
    requires Valid(s)
    ensures Valid(UndoEdit(s))
  {
    var r := UndoEdit(s);
    if |s.t.undo| > 0 {
      assert forall i :: 0 <= i < |r.t.undo| ==> r.t.undo[i] == s.t.undo[i];
      assert forall i :: 0 <= i < |s.t.redo| ==> r.t.redo[i] == s.t.redo[i];
      assert r.t.redo[|s.t.redo|] == s.t.cur;
    }
  }

  /** Redo keeps the state valid. */
  lemma RedoValid(s: State)
    requires Valid(s)
    ensures Valid(RedoEdit(s))
  {
    var r := RedoEdit(s);
    if |s.t.redo| > 0 {
      assert forall i :: 0 <= i < |r.t.redo| ==> r.t.redo[i] == s.t.redo[i];
      assert forall i :: 0 <= i < |s.t.undo| ==> r.t.undo[i] == s.t.undo[i];
      assert r.t.undo[|s.t.undo|] == s.t.cur;
    }
  }

  /** The eye button of an existing path keeps the state valid. */
  lemma ToggleVisibleValid(s: State, pathId: string)
    requires Valid(s)
    ensures Valid(ToggleVisible(s, pathId))
  {
    var found := FindPath(s.t.cur.paths, pathId);
    if found.Some? {
      PathFieldEditKeepsOk(s.t.cur, ToggleVisible(s, pathId).t.cur, found.value);
      CommitValid(s, ToggleVisible(s, pathId).t.cur);
    }
  }

  /** Pressing the eye button twice restores the document; two snapshots are recorded. */
  lemma ToggleVisibleTwice(s: State, pathId: string)
    ensures ToggleVisible(ToggleVisible(s, pathId), pathId).t.cur == s.t.cur
  {
    var found := FindPath(s.t.cur.paths, pathId);
    if found.Some? {
      var once := ToggleVisible(s, pathId);
      assert FindPath(once.t.cur.paths, pathId) == found;
      assert ToggleVisible(once, pathId).t.cur.paths == s.t.cur.paths;
    }
  }

  /** Committing a label keeps the state valid. */
  lemma CommitLabelValid(s: State, pathId: string, input: string)
    requires Valid(s)
    ensures Valid(CommitLabel(s, pathId, input))
  {
    var r := CommitLabel(s, pathId, input);
    var found := FindPath(s.t.cur.paths, pathId);
    if found.Some? && r != s {
      PathFieldEditKeepsOk(s.t.cur, r.t.cur, found.value);
      CommitValid(s, r.t.cur);
    }
  }

  /** Committing the same input twice is the same as committing it once: the second commit changes nothing. */
  lemma CommitLabelIdempotent(s: State, pathId: string, input: string)
    ensures CommitLabel(CommitLabel(s, pathId, input), pathId, input) == CommitLabel(s, pathId, input)
  {
    var found := FindPath(s.t.cur.paths, pathId);
    if found.Some? {
      var once := CommitLabel(s, pathId, input);
      assert FindPath(once.t.cur.paths, pathId) == found;
    }
  }

  /** Changing the label or visibility of path `i` (never its id or nodes) keeps the snapshot consistent. */
  lemma PathFieldEditKeepsOk(before: Snapshot, after: Snapshot, i: nat)
    requires SnapshotOk(before) && i < |before.paths| && |after.paths| == |before.paths|
    requires after.paths[i].pathId == before.paths[i].pathId && after.paths[i].nodeIds == before.paths[i].nodeIds
    requires forall j :: 0 <= j < |before.paths| && j != i ==> after.paths[j] == before.paths[j]
    requires after == before.(paths := after.paths)
    ensures SnapshotOk(after)
  {
    assert forall j :: 0 <= j < |before.paths| ==>
      after.paths[j].pathId == before.paths[j].pathId && after.paths[j].nodeIds == before.paths[j].nodeIds;
    forall p | p in after.paths ensures Connected(after.edges, p.nodeIds) {
      var j :| 0 <= j < |after.paths| && after.paths[j] == p;
      assert before.paths[j] in before.paths;
    }
    forall v | v in ProtectedNodes(after.paths) ensures HasNode(after.nodes, v) {
      var p :| p in after.paths && v in p.nodeIds;
      var j :| 0 <= j < |after.paths| && after.paths[j] == p;
      assert before.paths[j] in before.paths;
    }
    if after.activeEnd.Some? {
      var end := after.activeEnd.value;
      var p :| p in before.paths && p.pathId == end.pathId && end.endIndex < |p.nodeIds| && AtBoundary(p.nodeIds, end.endIndex);
      var j :| 0 <= j < |before.paths| && before.paths[j] == p;
      assert after.paths[j] in after.paths;
    }
    if after.activePathId.Some? {
      var j :| 0 <= j < |before.paths| && before.paths[j].pathId == after.activePathId.value;
      assert after.paths[j].pathId == after.activePathId.value;
    }
  }
}

=== FILE: pathedit.dfy ===
/**
 * Editing the node list of the active path: `applyPathEdit` (truncate at a
 * node already on the path, or splice a route at the active end) and the
 * endpoint selection of the plain-click handler.
 */
module PathEdit {
  import opened Wrappers
  import opened GraphStore
  import opened PathRegistry
  import opened Route

  /** `Array.prototype.indexOf`: the first position of `x`, or -1 when it is absent. */
  function IndexOf(ids: seq<NodeId>, x: NodeId): (r: int)
    ensures -1 <= r < |ids|
    ensures r == -1 <==> x !in ids
    ensures r >= 0 ==> ids[r] == x && forall k :: 0 <= k < r ==> ids[k] != x
  {
    if |ids| == 0 then -1
    else if ids[0] == x then 0
    else
      var r := IndexOf(ids[1..], x);
      assert forall k :: 1 <= k < |ids| ==> ids[k] == ids[1..][k - 1];
      if r == -1 then -1 else r + 1
  }

  /** The active end sits at one of the two ends of the node list. */
  predicate AtBoundary(ids: seq<NodeId>, endIndex: nat) {
    endIndex == 0 || endIndex == |ids| - 1
  }

  /**
   * The outcome of a successful edit: the new node list, the new active-end
   * index, and whether the target was already on the path (then the handler
   * also selects the target node).
   */
  datatype Edit = Edit(nodeIds: seq<NodeId>, endIndex: nat, truncated: bool)

  function Reverse(s: seq<NodeId>): seq<NodeId> {
    if |s| == 0 then [] else Reverse(s[1..]) + [s[0]]
  }

  /** Position `i` of the reversed sequence holds position `|s| - 1 - i` of the original. */
  lemma {:induction false} ReverseIndex(s: seq<NodeId>)
    ensures |Reverse(s)| == |s|
    ensures forall i :: 0 <= i < |s| ==> Reverse(s)[i] == s[|s| - 1 - i]
  {
    if |s| > 0 {
      ReverseIndex(s[1..]);
    }
  }

  /** A route read backwards is a route between the same nodes in the other direction. */
  lemma ConnectedReverse(edges: seq<Edge>, s: seq<NodeId>)
    requires Connected(edges, s)
    ensures Connected(edges, Reverse(s))
  {
    ReverseIndex(s);
    var r := Reverse(s);
    forall i | 0 <= i < |r| - 1 ensures Linked(edges, r[i], r[i + 1]) {
      var j := |s| - 2 - i;
      assert r[i] == s[j + 1] && r[i + 1] == s[j];
      var k :| 0 <= k < |edges| && Joins(edges[k], s[j], s[j + 1]);
      assert Joins(edges[k], r[i], r[i + 1]);
    }
  }

  /** Gluing two connected sequences that share the joint node keeps them connected. */
  lemma ConnectedJoin(edges: seq<Edge>, a: seq<NodeId>, b: seq<NodeId>)
    requires |a| > 0 && |b| > 0 && a[|a| - 1] == b[0]
    requires Connected(edges, a) && Connected(edges, b)
    ensures Connected(edges, a + b[1..])
  {
    var c := a + b[1..];
    forall i | 0 <= i < |c| - 1 ensures Linked(edges, c[i], c[i + 1]) {
      if i < |a| - 1 {
        assert c[i] == a[i] && c[i + 1] == a[i + 1];
      } else {
        var j := i - |a| + 1;
        assert c[i] == b[j] && c[i + 1] == b[j + 1];
      }
    }
  }

  lemma ConnectedSlice(edges: seq<Edge>, s: seq<NodeId>, lo: nat, hi: nat)
    requires lo <= hi <= |s| && Connected(edges, s)
    ensures Connected(edges, s[lo..hi])
  {
    var t := s[lo..hi];
    forall i | 0 <= i < |t| - 1 ensures Linked(edges, t[i], t[i + 1]) {
      assert t[i] == s[lo + i] && t[i + 1] == s[lo + i + 1];
    }
  }

  /** Every node of a connected sequence of two or more nodes is an edge endpoint. */
  lemma ConnectedInEndpoints(edges: seq<Edge>, s: seq<NodeId>)
    requires |s| >= 2 && Connected(edges, s)
    ensures forall i :: 0 <= i < |s| ==> s[i] in Endpoints(edges)
  {
    forall i | 0 <= i < |s| ensures s[i] in Endpoints(edges) {
      if i < |s| - 1 {
        LinkedEndpoints(edges, s[i], s[i + 1]);
      } else {
        LinkedEndpoints(edges, s[i - 1], s[i]);
      }
    }
  }

  /** The truncating branch: the target is already on the path, first at position `p`. */
  function Truncate(ids: seq<NodeId>, p: nat, endIndex: nat): Edit
    requires p < |ids|
  {
    if endIndex == 0 then Edit(ids[p..], 0, true) else Edit(ids[..p + 1], p, true)
  }

  /**
   * The extending branch: `segment` runs from the active-end node to the
   * target; its tail is prepended reversed at end 0, or appended after the
   * active end otherwise (dropping whatever followed it).
   */
  function Extend(ids: seq<NodeId>, segment: seq<NodeId>, endIndex: nat): Edit
    requires endIndex < |ids| && |segment| >= 1
  {
    if endIndex == 0 then
      Edit(Reverse(segment[1..]) + ids, 0, false)
    else
      var kept := ids[..endIndex + 1];
      Edit(kept + segment[1..], |kept| + |segment| - 2, false)
  }

  /** Truncating at the first occurrence of the target keeps one side of the path and ends at the target. */
  lemma TruncateShape(edges: seq<Edge>, ids: seq<NodeId>, target: NodeId, endIndex: nat)
    requires target in ids
    ensures var r := Truncate(ids, IndexOf(ids, target), endIndex);
            && |r.nodeIds| >= 1 && r.endIndex < |r.nodeIds| && r.nodeIds[r.endIndex] == target
            && AtBoundary(r.nodeIds, r.endIndex) && r.truncated
            && (endIndex == 0 ==> r.endIndex == 0 && r.nodeIds == ids[|ids| - |r.nodeIds|..]
                                  && target !in ids[..|ids| - |r.nodeIds|])
            && (endIndex != 0 ==> r.endIndex == |r.nodeIds| - 1 && r.nodeIds == ids[..|r.nodeIds|]
                                  && target !in r.nodeIds[..r.endIndex])
            && (Connected(edges, ids) ==> Connected(edges, r.nodeIds))
            && (forall v :: v in r.nodeIds ==> v in ids)
  {
    var p := IndexOf(ids, target);
    assert ids[p] !in ids[..p];
    if endIndex == 0 {
      KeepSuffix(edges, ids, p);
    } else {
      KeepPrefix(edges, ids, p);
    }
  }

  /** The suffix from the first occurrence of a node: it starts at that node, which occurs nowhere before it. */
  lemma KeepSuffix(edges: seq<Edge>, ids: seq<NodeId>, p: nat)
    requires p < |ids| && ids[p] !in ids[..p]
    ensures |ids[p..]| >= 1 && ids[p..][0] == ids[p] && ids[p..] == ids[|ids| - |ids[p..]|..]
    ensures ids[p] !in ids[..|ids| - |ids[p..]|]
    ensures Connected(edges, ids) ==> Connected(edges, ids[p..])
    ensures forall v :: v in ids[p..] ==> v in ids
  {
    if Connected(edges, ids) {
      ConnectedSlice(edges, ids, p, |ids|);
    }
  }

  /** The prefix up to the first occurrence of a node: it ends at that node, which occurs nowhere before it. */
  lemma KeepPrefix(edges: seq<Edge>, ids: seq<NodeId>, p: nat)
    requires p < |ids| && ids[p] !in ids[..p]
    ensures var r := ids[..p + 1];
            && |r| == p + 1 && r[p] == ids[p] && r == ids[..|r|] && ids[p] !in r[..p]
    ensures Connected(edges, ids) ==> Connected(edges, ids[..p + 1])
    ensures forall v :: v in ids[..p + 1] ==> v in ids
  {
    if Connected(edges, ids) {
      ConnectedSlice(edges, ids, 0, p + 1);
    }
    assert ids[..p + 1][..p] == ids[..p];
  }

  /** Clicking the active-end node itself, when it occurs nowhere earlier, leaves the path as it is. */
  lemma TruncateAtEndUnchanged(ids: seq<NodeId>, endIndex: nat)
    requires endIndex < |ids| && AtBoundary(ids, endIndex)
    requires endIndex == 0 || ids[endIndex] !in ids[..endIndex]
    ensures Truncate(ids, IndexOf(ids, ids[endIndex]), endIndex) == Edit(ids, endIndex, true)
  {
    var p := IndexOf(ids, ids[endIndex]);
    if endIndex != 0 {
      assert forall k :: 0 <= k < endIndex ==> ids[k] == ids[..endIndex][k];
      assert ids[..p + 1] == ids;
    }
  }

  /** Prepending the reversed tail equals gluing the reversed segment onto the path. */
  lemma ReverseTail(segment: seq<NodeId>, ids: seq<NodeId>)
    requires |segment| >= 1 && |ids| >= 1 && segment[0] == ids[0]
    ensures Reverse(segment[1..]) + ids == Reverse(segment) + ids[1..]
  {
    var a := Reverse(segment[1..]);
    var b := ids[1..];
    var left := a + ids;
    var right := Reverse(segment) + b;
    assert Reverse(segment) == a + [segment[0]];
    assert |left| == |right|;
    forall i | 0 <= i < |left| ensures left[i] == right[i] {
      if i < |a| {
        assert left[i] == a[i] && right[i] == (a + [segment[0]])[i];
      } else if i == |a| {
        assert left[i] == ids[0];
      } else {
        assert left[i] == ids[i - |a|] && right[i] == b[i - |a| - 1];
      }
    }
  }

  /**
   * Splicing a route from the active-end node to the target keeps the far
   * side of the path, puts the target at the new active end, and adds the
   * route's other nodes between them.
   */
  lemma ExtendShape(edges: seq<Edge>, ids: seq<NodeId>, segment: seq<NodeId>, target: NodeId, endIndex: nat)
    requires endIndex < |ids|
    requires IsRoute(edges, segment, ids[endIndex], target)
    ensures var r := Extend(ids, segment, endIndex);
            var added := |r.nodeIds| - (if endIndex == 0 then |ids| else endIndex + 1);
            && added == |segment| - 1
            && r.endIndex < |r.nodeIds| && r.nodeIds[r.endIndex] == target
            && AtBoundary(r.nodeIds, r.endIndex) && !r.truncated
            && (endIndex == 0 ==> r.endIndex == 0 && r.nodeIds[added..] == ids
                                  && IsRoute(edges, r.nodeIds[..added + 1], target, ids[0]))
            && (endIndex != 0 ==> r.endIndex == |r.nodeIds| - 1 && r.nodeIds[..endIndex + 1] == ids[..endIndex + 1]
                                  && IsRoute(edges, r.nodeIds[endIndex..], ids[endIndex], target))
            && (Connected(edges, ids) ==> Connected(edges, r.nodeIds))
  {
    var r := Extend(ids, segment, endIndex);
    if endIndex == 0 {
      ReverseTail(segment, ids);
      ReverseIndex(segment);
      ConnectedReverse(edges, segment);
      var rev := Reverse(segment);
      assert r.nodeIds == rev + ids[1..];
      assert r.nodeIds[..|segment|] == rev;
      assert r.nodeIds[|segment| - 1..] == ids;
      if Connected(edges, ids) {
        ConnectedJoin(edges, rev, ids);
      }
    } else {
      var kept := ids[..endIndex + 1];
      assert r.nodeIds[endIndex..] == segment;
      if Connected(edges, ids) {
        ConnectedSlice(edges, ids, 0, endIndex + 1);
        ConnectedJoin(edges, kept, segment);
      }
    }
  }

  /**
   * The extension branch's promise: `out` keeps the path's side at the
   * active end and adds as few nodes as the shortest route needs (one over a
   * direct edge).
   */
  ghost predicate Spliced(edges: seq<Edge>, ids: seq<NodeId>, target: NodeId, endIndex: nat, out: seq<NodeId>)
    requires endIndex < |ids|
  {
    var added := |out| - (if endIndex == 0 then |ids| else endIndex + 1);
    && 0 <= added
    && (endIndex == 0 ==> out[added..] == ids)
    && (endIndex != 0 ==> out[..endIndex + 1] == ids[..endIndex + 1])
    && (Linked(edges, ids[endIndex], target) ==> added == 1)
    && (forall w :: IsRoute(edges, w, ids[endIndex], target) ==> added + 1 <= |w|)
  }

  /**
   * What a successful `applyPathEdit` of `ids` towards `target` at
   * `endIndex` leaves: the node list `out` with the target at the new active
   * end `k` on a boundary, connected when `ids` was, made of path nodes and
   * edge endpoints; the truncation at the first occurrence when the target
   * was on the path, a minimal splice otherwise.
   */
  ghost predicate EditSound(edges: seq<Edge>, ids: seq<NodeId>, target: NodeId, endIndex: nat, out: seq<NodeId>, k: nat)
    requires endIndex < |ids|
  {
    && k < |out| && out[k] == target && AtBoundary(out, k)
    && (Connected(edges, ids) ==> Connected(edges, out))
    && (forall v :: v in out ==> v in ids || v in Endpoints(edges))
    && (target in ids ==> out == Truncate(ids, IndexOf(ids, target), endIndex).nodeIds
                          && k == Truncate(ids, IndexOf(ids, target), endIndex).endIndex)
    && (target !in ids ==> Spliced(edges, ids, target, endIndex, out))
  }

  /**
   * When `applyPathEdit` refuses: the target is off the path, not adjacent
   * to the active end, and (edge ids being non-empty) not reachable from it.
   */
  ghost predicate Refused(edges: seq<Edge>, ids: seq<NodeId>, target: NodeId, endIndex: nat)
    requires endIndex < |ids|
  {
    && target !in ids
    && !Linked(edges, ids[endIndex], target)
    && (!HasEmptyId(edges) ==> !Reachable(edges, ids[endIndex], target))
  }

  /**
   * `applyPathEdit(path, targetId, endIndex)`: truncate at the target when it
   * is already on the path; otherwise connect the active end to the target
   * by the direct edge if there is one, else by the breadth-first route, and
   * splice that segment in. `None` is the "no path in graph" refusal.
   */
  method ApplyPathEdit(nodes: seq<Node>, edges: seq<Edge>, ids: seq<NodeId>, target: NodeId, endIndex: nat)
    returns (r: Option<Edit>)
    requires endIndex < |ids|
    ensures target in ids ==> r == Some(Truncate(ids, IndexOf(ids, target), endIndex))
    ensures r.Some? ==> EditSound(edges, ids, target, endIndex, r.value.nodeIds, r.value.endIndex)
    ensures r.None? ==> Refused(edges, ids, target, endIndex)
    ensures Reachable(edges, ids[endIndex], target) && !HasEmptyId(edges) ==> r.Some?
    ensures Linked(edges, ids[endIndex], target) ==> r.Some?
  {
    var existing := IndexOf(ids, target);
    if existing != -1 {
      TruncateShape(edges, ids, target, endIndex);
      return Some(Truncate(ids, existing, endIndex));
    }
    var endNode := ids[endIndex];
    var segment: seq<NodeId>;
    if FindEdge(edges, endNode, target).Some? {
      segment := [endNode, target];
      assert Connected(edges, segment);
      forall w | IsRoute(edges, w, endNode, target) ensures 2 <= |w| {
        assert endNode in ids;
      }
    } else {
      var route := ShortestRoute(nodes, edges, endNode, target);
      if route.None? {
        return None;
      }
      segment := route.value;
      LinkedRoute(edges, endNode, target);
    }
    ExtendShape(edges, ids, segment, target, endIndex);
    ConnectedInEndpoints(edges, segment);
    var e := Extend(ids, segment, endIndex);
    ExtendNodes(ids, segment, endIndex);
    r := Some(e);
  }

  /** A direct edge is a two-node route. */
  lemma LinkedRoute(edges: seq<Edge>, u: NodeId, v: NodeId)
    ensures Linked(edges, u, v) ==> IsRoute(edges, [u, v], u, v)
  {
  }

  /** The spliced list holds only the path's nodes and the segment's nodes. */
  lemma ExtendNodes(ids: seq<NodeId>, segment: seq<NodeId>, endIndex: nat)
    requires endIndex < |ids| && |segment| >= 1
    ensures forall v :: v in Extend(ids, segment, endIndex).nodeIds ==> v in ids || v in segment
  {
    if endIndex == 0 {
      var t := segment[1..];
      ReverseIndex(t);
      forall v | v in Reverse(t) ensures v in segment {
        var i :| 0 <= i < |Reverse(t)| && Reverse(t)[i] == v;
        assert t[|t| - 1 - i] == segment[|t| - i];
      }
    }
  }

  /** Outcome of clicking a node while a path is active. */
  datatype Selection = Selected(endIndex: nat) | NotAnEndpoint | NotOnPath

  /**
   * The endpoint selection as the click handler writes it: the position of
   * the first occurrence decides, so a last node that also occurs earlier is
   * reported as "not an endpoint".
   */
  function SelectEndpoint(ids: seq<NodeId>, target: NodeId): (r: Selection)
    ensures r.NotOnPath? <==> target !in ids
    ensures r.Selected? <==> target in ids && (IndexOf(ids, target) == 0 || IndexOf(ids, target) == |ids| - 1)
    ensures r.Selected? ==> r.endIndex == IndexOf(ids, target)
    ensures r.Selected? ==> r.endIndex < |ids| && ids[r.endIndex] == target && AtBoundary(ids, r.endIndex)
  {
    var index := IndexOf(ids, target);
    if index == -1 then NotOnPath
    else if index == 0 || index == |ids| - 1 then Selected(index)
    else NotAnEndpoint
  }

  /**
   * A reachable path on which the handler's selection fails: begin at A,
   * extend end 0 to B over the edge A-B, then to D over the route B-A-D.
   * The path is D, A, B, A; clicking its last node A is refused.
   */
  lemma SelectEndpointRejectsLastNode()
    ensures var edges := [Edge("A", "B"), Edge("A", "D")];
            var first := Extend(["A"], ["A", "B"], 0).nodeIds;
            var second := Extend(first, ["B", "A", "D"], 0).nodeIds;
            && IsRoute(edges, ["A", "B"], "A", "B")
            && IsRoute(edges, ["B", "A", "D"], "B", "D")
            && second == ["D", "A", "B", "A"]
            && Connected(edges, second)
            && second[|second| - 1] == "A"
            && SelectEndpoint(second, "A") == NotAnEndpoint
  {
    var edges := [Edge("A", "B"), Edge("A", "D")];
    assert Joins(edges[0], "A", "B") && Joins(edges[0], "B", "A") && Joins(edges[1], "A", "D");
    var first := Extend(["A"], ["A", "B"], 0).nodeIds;
    assert first == ["B", "A"];
    var second := Extend(first, ["B", "A", "D"], 0).nodeIds;
    assert Reverse(["A", "D"]) == ["D", "A"];
    assert second == ["D", "A", "B", "A"];
    assert IndexOf(second, "A") == 1;
  }

  /** The endpoint selection as intended: the first node gives end 0, the last node the last index. */
  function SelectEndpointFixed(ids: seq<NodeId>, target: NodeId): (r: Selection)
    ensures r.Selected? <==> |ids| > 0 && (ids[0] == target || ids[|ids| - 1] == target)
    ensures r.NotOnPath? <==> target !in ids
    ensures r.Selected? ==> r.endIndex < |ids| && ids[r.endIndex] == target && AtBoundary(ids, r.endIndex)
  {
    if |ids| > 0 && ids[0] == target then Selected(0)
    else if |ids| > 0 && ids[|ids| - 1] == target then Selected(|ids| - 1)
    else if target in ids then NotAnEndpoint
    else NotOnPath
  }

  /** Where the target occurs at most once, the handler's selection and the intended one agree. */
  lemma SelectionsAgreeOnSingleOccurrence(ids: seq<NodeId>, target: NodeId)
    requires forall i, j :: 0 <= i < j < |ids| && ids[i] == target ==> ids[j] != target
    ensures SelectEndpoint(ids, target) == SelectEndpointFixed(ids, target)
  {
  }
}

=== FILE: paths.dfy ===
/**
 * Named paths over the graph and the protection index derived from them
 * (`rebuildProtectedSets`, `getPathsUsingNode`, `getPathsUsingEdge`).
 */
module PathRegistry {
  import opened Wrappers
  import opened GraphStore

  datatype Path = Path(pathId: string, labelText: string, nodeIds: seq<NodeId>, visible: bool)

  /** Every consecutive pair of `ids` is joined by an edge. */
  predicate Connected(edges: seq<Edge>, ids: seq<NodeId>) {
    forall i :: 0 <= i < |ids| - 1 ==> Linked(edges, ids[i], ids[i + 1])
  }

  /** The key of the pair at positions `i` and `i + 1`. */
  function StepKey(ids: seq<NodeId>, i: nat): EdgeKey
    requires i + 1 < |ids|
  {
    Key(ids[i], ids[i + 1])
  }

  /** The path uses the edge with key `k` between two consecutive nodes. */
  predicate UsesEdge(p: Path, k: EdgeKey) {
    exists i :: 0 <= i < |p.nodeIds| - 1 && StepKey(p.nodeIds, i) == k
  }

  /** The protected nodes: every node id of every path. */
  function ProtectedNodes(paths: seq<Path>): set<NodeId> {
    set p, n | p in paths && n in p.nodeIds :: n
  }

  /** The protected edges: the key of every consecutive pair of every path. */
  function ProtectedEdges(paths: seq<Path>): set<EdgeKey> {
    set p, i | p in paths && 0 <= i < |p.nodeIds| - 1 :: StepKey(p.nodeIds, i)
  }

  lemma ProtectedEdgesIff(paths: seq<Path>, k: EdgeKey)
    ensures k in ProtectedEdges(paths) <==> exists p :: p in paths && UsesEdge(p, k)
  {
    if k in ProtectedEdges(paths) {
      var p, i :| p in paths && 0 <= i < |p.nodeIds| - 1 && StepKey(p.nodeIds, i) == k;
      assert UsesEdge(p, k);
    }
  }

  /**
   * `rebuildProtectedSets`: the two loops over every path produce exactly the
   * protected node and edge sets.
   */
  method RebuildProtectedSets(paths: seq<Path>) returns (nodeSet: set<NodeId>, edgeSet: set<EdgeKey>)
    ensures forall n :: n in nodeSet <==> exists p :: p in paths && n in p.nodeIds
    ensures forall k :: k in edgeSet <==> exists p :: p in paths && UsesEdge(p, k)
  {
    nodeSet := {};
    edgeSet := {};
    for q := 0 to |paths|
      invariant forall n :: n in nodeSet <==> exists p :: p in paths[..q] && n in p.nodeIds
      invariant forall k :: k in edgeSet <==> exists p :: p in paths[..q] && UsesEdge(p, k)
    {
      var path := paths[q];
      assert paths[..q + 1] == paths[..q] + [path];
      ghost var nodes0 := nodeSet;
      ghost var edges0 := edgeSet;
      for j := 0 to |path.nodeIds|
        invariant nodeSet == nodes0 + set n | n in path.nodeIds[..j]
      {
        assert path.nodeIds[..j + 1] == path.nodeIds[..j] + [path.nodeIds[j]];
        nodeSet := nodeSet + {path.nodeIds[j]};
      }
      assert path.nodeIds[..|path.nodeIds|] == path.nodeIds;
      var i := 0;
      while i < |path.nodeIds| - 1
        invariant 0 <= i <= |path.nodeIds|
        invariant i <= |path.nodeIds| - 1 || |path.nodeIds| == 0
        invariant forall k :: k in edgeSet <==>
                    (k in edges0 || exists m :: 0 <= m < i && StepKey(path.nodeIds, m) == k)
      {
        edgeSet := edgeSet + {StepKey(path.nodeIds, i)};
        i := i + 1;
      }
      forall k
        ensures k in edgeSet <==> exists p :: p in paths[..q + 1] && UsesEdge(p, k)
      {
        if k in edgeSet && k !in edges0 {
          assert UsesEdge(path, k);
        }
      }
    }
    assert paths[..|paths|] == paths;
  }

  /** `getPathsUsingNode(id)`: the paths whose node list contains `id`, in order. */
  function PathsUsingNode(paths: seq<Path>, id: NodeId): (r: seq<Path>)
    ensures forall p :: p in r <==> p in paths && id in p.nodeIds
    ensures Subsequence(r, paths)
    ensures |r| <= |paths|
  {
    if |paths| == 0 then []
    else
      var rest := PathsUsingNode(paths[1..], id);
      assert forall p :: p in paths <==> p == paths[0] || p in paths[1..];
      if id in paths[0].nodeIds then [paths[0]] + rest else rest
  }

  /** `getPathsUsingEdge(key)`: the paths with a consecutive pair whose key is `key`, in order. */
  function PathsUsingEdge(paths: seq<Path>, k: EdgeKey): (r: seq<Path>)
    ensures forall p :: p in r <==> p in paths && UsesEdge(p, k)
    ensures Subsequence(r, paths)
    ensures |r| <= |paths|
  {
    if |paths| == 0 then []
    else
      var rest := PathsUsingEdge(paths[1..], k);
      assert forall p :: p in paths <==> p == paths[0] || p in paths[1..];
      if UsesEdge(paths[0], k) then [paths[0]] + rest else rest
  }

  /** A node is protected exactly when some path uses it, so the blocker list is never empty. */
  lemma ProtectedNodeHasBlockers(paths: seq<Path>, id: NodeId)
    ensures id in ProtectedNodes(paths) <==> |PathsUsingNode(paths, id)| > 0
  {
    if id in ProtectedNodes(paths) {
      var p :| p in paths && id in p.nodeIds;
      assert p in PathsUsingNode(paths, id);
    }
  }

  /** An edge key is protected exactly when some path uses it. */
  lemma ProtectedEdgeHasBlockers(paths: seq<Path>, k: EdgeKey)
    ensures k in ProtectedEdges(paths) <==> |PathsUsingEdge(paths, k)| > 0
  {
    ProtectedEdgesIff(paths, k);
    if k in ProtectedEdges(paths) {
      var p :| p in paths && UsesEdge(p, k);
      assert p in PathsUsingEdge(paths, k);
    }
  }

  /** The labels listed in a "used in saved paths" message. */
  function Labels(ps: seq<Path>): (r: seq<string>)
    ensures |r| == |ps|
    ensures forall i :: 0 <= i < |ps| ==> r[i] == ps[i].labelText
  {
    if |ps| == 0 then [] else [ps[0].labelText] + Labels(ps[1..])
  }

  /** `getPathById`: the index of the first path with the given id. */
  function FindPath(paths: seq<Path>, id: string): (r: Option<nat>)
    ensures r.None? <==> forall i :: 0 <= i < |paths| ==> paths[i].pathId != id
    ensures r.Some? ==> r.value < |paths| && paths[r.value].pathId == id
                        && forall j :: 0 <= j < r.value ==> paths[j].pathId != id
  {
    if |paths| == 0 then None
    else if paths[0].pathId == id then Some(0)
    else
      var r := FindPath(paths[1..], id);
      assert forall j :: 1 <= j < |paths| ==> paths[j] == paths[1..][j - 1];
      if r.Some? then Some(r.value + 1) else None
  }

  predicate HasPath(paths: seq<Path>, id: string) {
    exists i :: 0 <= i < |paths| && paths[i].pathId == id
  }

  predicate UniquePathIds(paths: seq<Path>) {
    forall i, j :: 0 <= i < j < |paths| ==> paths[i].pathId != paths[j].pathId
  }

  function PathIds(paths: seq<Path>): (ids: seq<string>)
    ensures |ids| == |paths|
    ensures forall i :: 0 <= i < |paths| ==> ids[i] == paths[i].pathId
  {
    if |paths| == 0 then [] else [paths[0].pathId] + PathIds(paths[1..])
  }

  /** The path deletion filter: every path except those with the given id, in order. */
  function RemovePath(paths: seq<Path>, id: string): (r: seq<Path>)
    ensures forall p :: p in r <==> p in paths && p.pathId != id
    ensures Subsequence(r, paths)
    ensures forall i :: 0 <= i < |r| ==> r[i] in paths
    ensures UniquePathIds(paths) ==> UniquePathIds(r)
  {
    if |paths| == 0 then []
    else
      var rest := RemovePath(paths[1..], id);
      assert forall p :: p in paths <==> p == paths[0] || p in paths[1..];
      if paths[0].pathId == id then rest
      else
        var r := [paths[0]] + rest;
        assert r[1..] == rest;
        r
  }
}

=== FILE: project.dfy ===
/**
 * Saving and loading a project as JSON: the export button writes the image
 * size and the document, and `loadProjectFromJson` replaces the document,
 * clears the session and the history, and recovers the id counters from
 * the imported ids (`computeNextCounter`). Reading and writing files and
 * `JSON.parse` are left to the caller: the model starts from the parsed
 * payload, and a payload field that is not an array is `None`.
 */
module Project {
  import opened Wrappers
  import opened Ids
  import opened GraphStore
  import opened PathRegistry
  import opened History
  import opened Invariant
  import opened Editor

  /** A parsed project file; `None` stands for a missing field (or, for the lists, one that is not an array). */
  datatype Payload = Payload(
    imageWidth: Option<real>,
    imageHeight: Option<real>,
    nodes: Option<seq<Node>>,
    edges: Option<seq<Edge>>,
    paths: Option<seq<Path>>)

  /** JavaScript falsiness of a dimension: missing or zero. */
  predicate Falsy(d: Option<real>) {
    d.None? || d.value == 0.0
  }

  /** The payload carries a usable image size. */
  predicate HasDims(payload: Option<Payload>) {
    payload.Some? && !Falsy(payload.value.imageWidth) && !Falsy(payload.value.imageHeight)
  }

  /** The snapshot an import starts from: the payload's lists, no selection, no active or draft path. */
  function Imported(p: Payload): Snapshot {
    Snapshot(p.nodes.GetOr([]), p.edges.GetOr([]), p.paths.GetOr([]), None, None, None, None)
  }

  /**
   * `loadProjectFromJson`: a payload without a usable image size is
   * rejected and nothing changes. Otherwise the document is replaced, the
   * session and both stacks are cleared, each counter is set past the
   * largest counter found among the imported ids, and the payload's size
   * becomes the size an image must have. The loaded image stays.
   */
  function LoadProject(s: State, payload: Option<Payload>): (r: Reply)
    ensures r.fault.Some? <==> !HasDims(payload)
    ensures r.fault.Some? ==> r.state == s && r.fault == Some(InvalidProject)
    ensures r.fault.None? ==>
              var p := payload.value;
              && r.state.t.cur == Imported(p)
              && r.state.t.undo == [] && r.state.t.redo == []
              && r.state.image == s.image
              && r.state.expectedImage == Some(Dims(p.imageWidth.value, p.imageHeight.value))
              && r.state.loadedFromJson
    ensures r.fault.None? ==>
              && r.state.nodeCounter == NextCounter(NodeIds(r.state.t.cur.nodes), 'N')
              && r.state.pathCounter == NextCounter(PathIds(r.state.t.cur.paths), 'P')
    ensures r.fault.None? ==>
              && (forall v :: v in NodeIds(r.state.t.cur.nodes) && HasCounterForm(v, 'N') ==> CounterOf(v, 'N') < r.state.nodeCounter)
              && (forall v :: v in PathIds(r.state.t.cur.paths) && HasCounterForm(v, 'P') ==> CounterOf(v, 'P') < r.state.pathCounter)
  {
    if !HasDims(payload) then Reply(s, Some(InvalidProject))
    else
      var p := payload.value;
      var cur := Imported(p);
      var t := Timeline(cur, [], []);
      Reply(State(t, NextCounter(NodeIds(cur.nodes), 'N'), NextCounter(PathIds(cur.paths), 'P'),
                  s.image, Some(Dims(p.imageWidth.value, p.imageHeight.value)), true), None)
  }

  /**
   * The export button: the size comes from the loaded image, or else from
   * the size an imported project expects; without a usable size the export
   * is refused (`None`, the "Cannot export JSON" toast).
   */
  function ExportProject(s: State): (r: Option<Payload>)
    ensures var w := if s.image.Some? then Some(s.image.value.width) else if s.expectedImage.Some? then Some(s.expectedImage.value.width) else None;
            var h := if s.image.Some? then Some(s.image.value.height) else if s.expectedImage.Some? then Some(s.expectedImage.value.height) else None;
            && (r.None? <==> Falsy(w) || Falsy(h))
            && (r.Some? ==> r.value.imageWidth == w && r.value.imageHeight == h)
    ensures r.Some? ==> r.value.nodes == Some(s.t.cur.nodes) && r.value.edges == Some(s.t.cur.edges) && r.value.paths == Some(s.t.cur.paths)
  {
    var dims := if s.image.Some? then s.image else s.expectedImage;
    if dims.None? || dims.value.width == 0.0 || dims.value.height == 0.0 then None
    else Some(Payload(Some(dims.value.width), Some(dims.value.height), Some(s.t.cur.nodes), Some(s.t.cur.edges), Some(s.t.cur.paths)))
  }

  /**
   * Importing an exported project restores the document with an empty
   * session and history; exporting again before an image is loaded writes
   * the same file.
   */
  lemma ExportThenLoad(s: State, t: State)
    requires ExportProject(s).Some?
    ensures var r := LoadProject(t, ExportProject(s));
            && r.fault.None?
            && r.state.t.cur.nodes == s.t.cur.nodes && r.state.t.cur.edges == s.t.cur.edges && r.state.t.cur.paths == s.t.cur.paths
            && (t.image.None? ==> ExportProject(r.state) == ExportProject(s))
  {
  }

  /** After an import the next generated node and path ids are the counters themselves: no counter is skipped. */
  lemma LoadThenCreate(s: State, payload: Option<Payload>)
    requires HasDims(payload)
    ensures var r := LoadProject(s, payload).state;
            && FreshId('N', NodeIds(r.t.cur.nodes), r.nodeCounter) == (Format('N', r.nodeCounter), r.nodeCounter + 1)
            && FreshId('P', PathIds(r.t.cur.paths), r.pathCounter) == (Format('P', r.pathCounter), r.pathCounter + 1)
  {
    var r := LoadProject(s, payload).state;
    FreshAfterImport('N', NodeIds(r.t.cur.nodes));
    FreshAfterImport('P', PathIds(r.t.cur.paths));
  }

  /**
   * The import does not check the document, so validity after it needs a
   * consistent graph and consistent paths in the payload.
   */
  lemma LoadValid(s: State, payload: Option<Payload>)
    requires HasDims(payload)
    requires var c := Imported(payload.value); GraphOk(c.nodes, c.edges) && PathsOk(c.nodes, c.edges, c.paths)
    ensures Valid(LoadProject(s, payload).state)
  {
  }

  /** Re-importing the export of a valid state gives a valid state. */
  lemma ExportThenLoadValid(s: State, t: State)
    requires Valid(s) && ExportProject(s).Some?
    ensures Valid(LoadProject(t, ExportProject(s)).state)
  {
    LoadValid(t, ExportProject(s));
  }
}

=== FILE: route.dfy ===
/**
 * Route search over the whole edge list: `buildAdjacency` and
 * `bfsShortestPath`. Edges are unweighted, so the search is breadth-first and
 * a route it returns has the fewest edges.
 */
module Route {
  import opened Wrappers
  import opened GraphStore
  import opened PathRegistry

  /** What one edge pushes onto `v`'s adjacency list: `b` when `a == v`, then `a` when `b == v`. */
  function Contribution(e: Edge, v: NodeId): seq<NodeId> {
    (if e.a == v then [e.b] else []) + (if e.b == v then [e.a] else [])
  }

  /** `v`'s adjacency list after all edges have been pushed, in edge order. */
  function Neighbors(edges: seq<Edge>, v: NodeId): seq<NodeId> {
    if |edges| == 0 then []
    else Neighbors(edges[..|edges| - 1], v) + Contribution(edges[|edges| - 1], v)
  }

  /** The adjacency list of `v` holds exactly the nodes an edge links to `v`. */
  lemma {:induction false} NeighborsLinked(edges: seq<Edge>, v: NodeId)
    ensures forall w :: w in Neighbors(edges, v) <==> Linked(edges, v, w)
  {
    if |edges| > 0 {
      var init := edges[..|edges| - 1];
      var e := edges[|edges| - 1];
      assert edges == init + [e];
      NeighborsLinked(init, v);
      LinkedSnoc(init, e);
    }
  }

  /** Every node id that is an endpoint of some edge. */
  function Endpoints(edges: seq<Edge>): set<NodeId> {
    if |edges| == 0 then {}
    else Endpoints(edges[..|edges| - 1]) + {edges[|edges| - 1].a, edges[|edges| - 1].b}
  }

  lemma {:induction false} EndpointsIff(edges: seq<Edge>)
    ensures forall v :: v in Endpoints(edges) <==> exists i :: 0 <= i < |edges| && (edges[i].a == v || edges[i].b == v)
  {
    if |edges| > 0 {
      var init := edges[..|edges| - 1];
      EndpointsIff(init);
      assert forall i :: 0 <= i < |init| ==> init[i] == edges[i];
    }
  }

  lemma LinkedEndpoints(edges: seq<Edge>, v: NodeId, w: NodeId)
    requires Linked(edges, v, w)
    ensures v in Endpoints(edges) && w in Endpoints(edges)
  {
    EndpointsIff(edges);
    var i :| 0 <= i < |edges| && Joins(edges[i], v, w);
  }

  /** `adj` holds a list for every node and every endpoint of `edges`, each that id's neighbours. */
  ghost predicate AdjacencyOf(adj: map<NodeId, seq<NodeId>>, nodes: seq<Node>, edges: seq<Edge>) {
    && (forall v :: v in adj <==> HasNode(nodes, v) || v in Endpoints(edges))
    && (forall v :: v in adj ==> adj[v] == Neighbors(edges, v))
  }

  /** The two pushes one edge makes: `b` onto `a`'s list, then `a` onto `b`'s, creating lists as needed. */
  function Push(adj: map<NodeId, seq<NodeId>>, e: Edge): map<NodeId, seq<NodeId>> {
    var adj1 := adj[e.a := (if e.a in adj then adj[e.a] else []) + [e.b]];
    adj1[e.b := (if e.b in adj1 then adj1[e.b] else []) + [e.a]]
  }

  /** The first pass of `buildAdjacency`: an empty list for every node. */
  function NodeLists(nodes: seq<Node>): map<NodeId, seq<NodeId>> {
    if |nodes| == 0 then map[]
    else NodeLists(nodes[..|nodes| - 1])[nodes[|nodes| - 1].id := []]
  }

  /**
   * `buildAdjacency`: the node pass, then both pushes of every edge in edge
   * order.
   */
  function Adjacency(nodes: seq<Node>, edges: seq<Edge>): map<NodeId, seq<NodeId>> {
    if |edges| == 0 then NodeLists(nodes)
    else Push(Adjacency(nodes, edges[..|edges| - 1]), edges[|edges| - 1])
  }

  lemma {:induction false} NodeListsEmpty(nodes: seq<Node>)
    ensures forall v :: v in NodeLists(nodes) <==> HasNode(nodes, v)
    ensures forall v :: v in NodeLists(nodes) ==> NodeLists(nodes)[v] == []
  {
    if |nodes| > 0 {
      NodeListsEmpty(nodes[..|nodes| - 1]);
      HasNodeSnoc(nodes, |nodes| - 1);
      assert nodes[..|nodes|] == nodes;
    }
  }

  /**
   * The adjacency map has a list for exactly the node ids and edge endpoints,
   * and each list holds `v`'s neighbours in edge order: exactly the ids some
   * edge links to `v`.
   */
  lemma {:induction false} AdjacencyExact(nodes: seq<Node>, edges: seq<Edge>)
    ensures AdjacencyOf(Adjacency(nodes, edges), nodes, edges)
    ensures forall v :: v in Adjacency(nodes, edges) <==> HasNode(nodes, v) || v in Endpoints(edges)
    ensures forall v :: v in Adjacency(nodes, edges) ==>
              forall w :: w in Adjacency(nodes, edges)[v] <==> Linked(edges, v, w)
  {
    if |edges| == 0 {
      NodeListsEmpty(nodes);
    } else {
      var init := edges[..|edges| - 1];
      AdjacencyExact(nodes, init);
      AdjacencyStep(Adjacency(nodes, init), nodes, init, edges[|edges| - 1]);
      assert init + [edges[|edges| - 1]] == edges;
    }
    forall v | v in Adjacency(nodes, edges) ensures forall w :: w in Adjacency(nodes, edges)[v] <==> Linked(edges, v, w) {
      NeighborsLinked(edges, v);
    }
  }

  lemma HasNodeSnoc(nodes: seq<Node>, i: nat)
    requires i < |nodes|
    ensures forall v :: HasNode(nodes[..i + 1], v) <==> HasNode(nodes[..i], v) || v == nodes[i].id
  {
    assert nodes[..i + 1] == nodes[..i] + [nodes[i]];
    forall v ensures HasNode(nodes[..i + 1], v) <==> HasNode(nodes[..i], v) || v == nodes[i].id {
      if HasNode(nodes[..i + 1], v) {
        var k :| 0 <= k < i + 1 && nodes[..i + 1][k].id == v;
        if k < i {
          assert nodes[..i][k].id == v;
        }
      }
      if HasNode(nodes[..i], v) {
        var k :| 0 <= k < i && nodes[..i][k].id == v;
        assert nodes[..i + 1][k].id == v;
      }
      if v == nodes[i].id {
        assert nodes[..i + 1][i].id == v;
      }
    }
  }

  /** Pushing one more edge keeps the adjacency exact. */
  lemma AdjacencyStep(adj: map<NodeId, seq<NodeId>>, nodes: seq<Node>, init: seq<Edge>, e: Edge)
    requires AdjacencyOf(adj, nodes, init)
    ensures AdjacencyOf(Push(adj, e), nodes, init + [e])
  {
    SnocSplit(init, e);
    forall v ensures v in Push(adj, e) <==> HasNode(nodes, v) || v in Endpoints(init + [e]) {
      PushAt(adj, e, v);
    }
    forall v | v in Push(adj, e) ensures Push(adj, e)[v] == Neighbors(init + [e], v) {
      PushAt(adj, e, v);
      if v !in adj {
        NoNeighborsOffGraph(init, v);
      }
    }
  }

  /** After both pushes, `v`'s list is its old list (or none) followed by what edge `e` contributes to it. */
  lemma PushAt(adj: map<NodeId, seq<NodeId>>, e: Edge, v: NodeId)
    ensures v in Push(adj, e) <==> v in adj || v == e.a || v == e.b
    ensures v in Push(adj, e) ==> Push(adj, e)[v] == (if v in adj then adj[v] else []) + Contribution(e, v)
  {
    var before := if v in adj then adj[v] else [];
    if v == e.a && v == e.b {
      assert before + [e.b] + [e.a] == before + ([e.b] + [e.a]);
    }
  }

  /** One more edge adds its two ends to the endpoints and its contribution to each list. */
  lemma SnocSplit(init: seq<Edge>, e: Edge)
    ensures Endpoints(init + [e]) == Endpoints(init) + {e.a, e.b}
    ensures forall v :: Neighbors(init + [e], v) == Neighbors(init, v) + Contribution(e, v)
  {
    assert (init + [e])[..|init|] == init;
  }

  lemma NoNeighborsOffGraph(edges: seq<Edge>, v: NodeId)
    requires v !in Endpoints(edges)
    ensures Neighbors(edges, v) == []
  {
    NeighborsLinked(edges, v);
    if Neighbors(edges, v) != [] {
      LinkedEndpoints(edges, v, Neighbors(edges, v)[0]);
    }
  }

  /** A route: a non-empty node sequence from `s` to `t` whose every step is an edge. */
  predicate IsRoute(edges: seq<Edge>, w: seq<NodeId>, s: NodeId, t: NodeId) {
    |w| >= 1 && w[0] == s && w[|w| - 1] == t && Connected(edges, w)
  }

  ghost predicate Reachable(edges: seq<Edge>, s: NodeId, t: NodeId) {
    exists w :: IsRoute(edges, w, s, t)
  }

  /** Some edge names the empty id, which JavaScript treats as false. */
  predicate HasEmptyId(edges: seq<Edge>) {
    exists i :: 0 <= i < |edges| && (edges[i].a == "" || edges[i].b == "")
  }

  /** Every neighbour of `v` has been reached, at most one level deeper than `v`. */
  ghost predicate Closed(edges: seq<Edge>, depth: map<NodeId, nat>, v: NodeId) {
    v in depth && forall w :: Linked(edges, v, w) ==> w in depth && depth[w] <= depth[v] + 1
  }

  /** `prev` links every reached node other than `start` to a reached node one level up. */
  ghost predicate BfsTree(edges: seq<Edge>, start: NodeId, prev: map<NodeId, NodeId>, depth: map<NodeId, nat>) {
    && start in depth && depth[start] == 0 && start !in prev
    && (forall v :: v in depth && v != start ==> v in prev)
    && (forall v {:trigger prev[v]} :: v in prev ==>
          v in depth && prev[v] in depth && Linked(edges, prev[v], v) && depth[v] == depth[prev[v]] + 1)
  }

  /** No route reaches a node in fewer steps than its level. */
  ghost predicate LevelsMinimal(edges: seq<Edge>, start: NodeId, depth: map<NodeId, nat>) {
    forall v, w :: v in depth && IsRoute(edges, w, start, v) ==> depth[v] < |w|
  }

  lemma ConnectedPrefix(edges: seq<Edge>, w: seq<NodeId>, n: nat)
    requires Connected(edges, w) && n <= |w|
    ensures Connected(edges, w[..n])
  {
    forall i | 0 <= i < n - 1 ensures Linked(edges, w[..n][i], w[..n][i + 1]) {
      assert w[..n][i] == w[i] && w[..n][i + 1] == w[i + 1];
    }
  }

  /** A route of at most `bound` steps from `start` stays among reached nodes, level bounded by position. */
  lemma {:induction false} ShortRoutesReached(edges: seq<Edge>, start: NodeId, depth: map<NodeId, nat>,
                                              bound: nat, w: seq<NodeId>)
    requires start in depth && depth[start] == 0
    requires forall v :: v in depth && depth[v] < bound ==> Closed(edges, depth, v)
    requires |w| >= 1 && w[0] == start && Connected(edges, w)
    requires |w| - 1 <= bound
    ensures forall i :: 0 <= i < |w| ==> w[i] in depth && depth[w[i]] <= i
  {
    if |w| > 1 {
      var init := w[..|w| - 1];
      ConnectedPrefix(edges, w, |w| - 1);
      ShortRoutesReached(edges, start, depth, bound, init);
      var k := |w| - 2;
      assert w[k] == init[k];
      assert Linked(edges, w[k], w[k + 1]);
      assert Closed(edges, depth, w[k]);
    }
  }

  /** When every reached node is closed, every route from `start` ends at a reached node. */
  lemma {:induction false} RoutesStayInClosed(edges: seq<Edge>, start: NodeId, depth: map<NodeId, nat>, w: seq<NodeId>)
    requires start in depth
    requires forall v :: v in depth ==> Closed(edges, depth, v)
    requires |w| >= 1 && w[0] == start && Connected(edges, w)
    ensures w[|w| - 1] in depth
  {
    if |w| > 1 {
      ConnectedPrefix(edges, w, |w| - 1);
      RoutesStayInClosed(edges, start, depth, w[..|w| - 1]);
      assert Linked(edges, w[|w| - 2], w[|w| - 1]);
    }
  }

  /**
   * While `current` is scanned, every node reachable from `start` in at most
   * `depth[current]` steps has already been reached.
   */
  lemma ShortRoutesEndReached(edges: seq<Edge>, start: NodeId, depth: map<NodeId, nat>, queue: seq<NodeId>,
                              current: NodeId)
    requires start in depth && depth[start] == 0 && current in depth
    requires forall v :: v in queue ==> v in depth && depth[v] >= depth[current]
    requires forall v :: v in depth && v !in queue && v != current ==> Closed(edges, depth, v)
    ensures forall w, x :: IsRoute(edges, w, start, x) && |w| - 1 <= depth[current] ==> x in depth
  {
    forall w, x | IsRoute(edges, w, start, x) && |w| - 1 <= depth[current] ensures x in depth {
      ShortRoutesReached(edges, start, depth, depth[current], w);
    }
  }

  /** The loop state of `bfsShortestPath` between two dequeues; `depth` holds the reached nodes. */
  ghost predicate SearchState(edges: seq<Edge>, start: NodeId, target: NodeId, reach: set<NodeId>,
                              queue: seq<NodeId>, prev: map<NodeId, NodeId>, depth: map<NodeId, nat>) {
    && depth.Keys <= reach
    && BfsTree(edges, start, prev, depth)
    && LevelsMinimal(edges, start, depth)
    && (forall i :: 0 <= i < |queue| ==> queue[i] in depth)
    && (target in depth ==> queue == [])
    && (target !in depth ==> forall v :: v in depth && v !in queue ==> Closed(edges, depth, v))
    && (forall i, j :: 0 <= i <= j < |queue| ==> depth[queue[i]] <= depth[queue[j]])
    && (forall i :: 0 <= i < |queue| ==> depth[queue[i]] <= depth[queue[0]] + 1)
    && (|queue| > 0 ==> forall v :: v in depth && v !in queue ==> depth[v] <= depth[queue[0]])
  }

  /** Queue entries are reached, sorted by level, and within one level of `level`. */
  ghost predicate QueueLevels(queue: seq<NodeId>, depth: map<NodeId, nat>, level: nat) {
    && (forall i :: 0 <= i < |queue| ==> queue[i] in depth && level <= depth[queue[i]] <= level + 1)
    && (forall i, k :: 0 <= i <= k < |queue| ==> depth[queue[i]] <= depth[queue[k]])
    && (forall v :: v in depth ==> depth[v] <= level + 1)
    && (forall v :: v in depth && v !in queue ==> depth[v] <= level)
  }

  /** Every reached node that is neither queued nor being scanned is closed. */
  ghost predicate ProcessedClosed(edges: seq<Edge>, queue: seq<NodeId>, depth: map<NodeId, nat>, current: NodeId) {
    forall v :: v in depth && v !in queue && v != current ==> Closed(edges, depth, v)
  }

  /** The loop state of the neighbour scan of `current`, whose level is `level`. */
  ghost predicate ScanState(edges: seq<Edge>, start: NodeId, target: NodeId, reach: set<NodeId>,
                            current: NodeId, level: nat,
                            queue: seq<NodeId>, prev: map<NodeId, NodeId>, depth: map<NodeId, nat>) {
    && depth.Keys <= reach
    && current in depth && depth[current] == level
    && BfsTree(edges, start, prev, depth)
    && LevelsMinimal(edges, start, depth)
    && target !in depth
    && QueueLevels(queue, depth, level)
    && ProcessedClosed(edges, queue, depth, current)
  }

  /** Dequeuing the head of a search state gives a scan state for it. */
  lemma BeginScan(edges: seq<Edge>, start: NodeId, target: NodeId, reach: set<NodeId>,
                  queue: seq<NodeId>, prev: map<NodeId, NodeId>, depth: map<NodeId, nat>)
    requires |queue| > 0
    requires SearchState(edges, start, target, reach, queue, prev, depth)
    ensures ScanState(edges, start, target, reach, queue[0], depth[queue[0]], queue[1..], prev, depth)
  {
    BeginQueue(queue, depth);
    BeginClosed(edges, queue, depth);
  }

  lemma BeginQueue(queue: seq<NodeId>, depth: map<NodeId, nat>)
    requires |queue| > 0
    requires forall i :: 0 <= i < |queue| ==> queue[i] in depth
    requires forall i, j :: 0 <= i <= j < |queue| ==> depth[queue[i]] <= depth[queue[j]]
    requires forall i :: 0 <= i < |queue| ==> depth[queue[i]] <= depth[queue[0]] + 1
    requires forall v :: v in depth && v !in queue ==> depth[v] <= depth[queue[0]]
    ensures QueueLevels(queue[1..], depth, depth[queue[0]])
  {
    var c := queue[0];
    assert queue == [c] + queue[1..];
    forall v | v in depth ensures depth[v] <= depth[c] + 1 {
      if v in queue {
        var i :| 0 <= i < |queue| && queue[i] == v;
      }
    }
  }

  lemma BeginClosed(edges: seq<Edge>, queue: seq<NodeId>, depth: map<NodeId, nat>)
    requires |queue| > 0
    requires forall v :: v in depth && v !in queue ==> Closed(edges, depth, v)
    ensures ProcessedClosed(edges, queue[1..], depth, queue[0])
  {
    assert queue == [queue[0]] + queue[1..];
  }

  /** Once `current` is closed, the scan state is again a search state. */
  lemma EndScan(edges: seq<Edge>, start: NodeId, target: NodeId, reach: set<NodeId>, current: NodeId, level: nat,
                queue: seq<NodeId>, prev: map<NodeId, NodeId>, depth: map<NodeId, nat>)
    requires ScanState(edges, start, target, reach, current, level, queue, prev, depth)
    requires Closed(edges, depth, current)
    ensures SearchState(edges, start, target, reach, queue, prev, depth)
  {
    if |queue| > 0 {
      assert queue[0] in queue;
      forall i | 0 <= i < |queue| ensures depth[queue[i]] <= depth[queue[0]] + 1 {
        assert queue[i] in queue;
      }
    }
  }

  /**
   * One step of the inner `for (const neighbor of neighbors)` loop: an
   * unvisited neighbour is marked, gets `current` as its predecessor and is
   * enqueued; reaching the target stops the whole search.
   */
  method VisitNeighbor(edges: seq<Edge>, current: NodeId, neighbor: NodeId,
                       queue0: seq<NodeId>, visited0: set<NodeId>, prev0: map<NodeId, NodeId>,
                       target: NodeId, ghost start: NodeId, ghost reach: set<NodeId>,
                       ghost level: nat, ghost depth0: map<NodeId, nat>)
    returns (queue: seq<NodeId>, visited: set<NodeId>, prev: map<NodeId, NodeId>, ghost depth: map<NodeId, nat>,
             found: bool)
    requires Endpoints(edges) <= reach && Linked(edges, current, neighbor)
    requires visited0 == depth0.Keys
    requires ScanState(edges, start, target, reach, current, level, queue0, prev0, depth0)
    ensures visited == depth.Keys && visited0 <= visited && neighbor in visited
    ensures found <==> target in visited
    ensures found ==> SearchState(edges, start, target, reach, queue, prev, depth)
    ensures !found ==> ScanState(edges, start, target, reach, current, level, queue, prev, depth)
    ensures |reach - visited| + |queue| <= |reach - visited0| + |queue0|
  {
    queue, visited, prev, depth, found := queue0, visited0, prev0, depth0, false;
    if neighbor !in visited {
      LinkedEndpoints(edges, current, neighbor);
      UnvisitedShrinks(reach, visited, neighbor);
      if neighbor == target {
        DiscoverTarget(edges, start, target, reach, current, level, queue, prev, depth);
        visited, prev, depth := visited + {neighbor}, prev[neighbor := current], depth[neighbor := level + 1];
        queue, found := [], true;
        return;
      }
      DiscoverOther(edges, start, target, reach, current, level, queue, prev, depth, neighbor);
      queue, visited := queue + [neighbor], visited + {neighbor};
      prev, depth := prev[neighbor := current], depth[neighbor := level + 1];
    }
  }

  /** Reaching the target ends the search with an empty queue and a complete tree. */
  lemma DiscoverTarget(edges: seq<Edge>, start: NodeId, target: NodeId, reach: set<NodeId>, current: NodeId,
                       level: nat, queue: seq<NodeId>, prev: map<NodeId, NodeId>, depth: map<NodeId, nat>)
    requires target in reach && Linked(edges, current, target)
    requires ScanState(edges, start, target, reach, current, level, queue, prev, depth)
    ensures SearchState(edges, start, target, reach, [], prev[target := current], depth[target := level + 1])
  {
    DiscoverTree(edges, start, prev, depth, current, target, level);
    DiscoverMinimal(edges, start, depth, queue, current, target, level);
    DoneState(edges, start, target, reach, prev[target := current], depth[target := level + 1]);
  }

  /** A complete tree and levels that no route undercuts, with the target reached, end the search. */
  lemma DoneState(edges: seq<Edge>, start: NodeId, target: NodeId, reach: set<NodeId>,
                  prev: map<NodeId, NodeId>, depth: map<NodeId, nat>)
    requires depth.Keys <= reach && target in depth
    requires BfsTree(edges, start, prev, depth) && LevelsMinimal(edges, start, depth)
    ensures SearchState(edges, start, target, reach, [], prev, depth)
  {
  }

  /** Any other new neighbour is enqueued one level below `current` and the scan goes on. */
  lemma DiscoverOther(edges: seq<Edge>, start: NodeId, target: NodeId, reach: set<NodeId>, current: NodeId,
                      level: nat, queue: seq<NodeId>, prev: map<NodeId, NodeId>, depth: map<NodeId, nat>,
                      neighbor: NodeId)
    requires neighbor in reach && Linked(edges, current, neighbor) && neighbor !in depth && neighbor != target
    requires ScanState(edges, start, target, reach, current, level, queue, prev, depth)
    ensures ScanState(edges, start, target, reach, current, level, queue + [neighbor],
                      prev[neighbor := current], depth[neighbor := level + 1])
  {
    DiscoverTree(edges, start, prev, depth, current, neighbor, level);
    DiscoverMinimal(edges, start, depth, queue, current, neighbor, level);
    DiscoverQueue(queue, depth, level, neighbor);
    DiscoverClosed(edges, queue, depth, current, level, neighbor);
  }

  /**
   * The inner `for (const neighbor of neighbors)` loop: visits each neighbour
   * of `current` in order and stops everything at the target.
   */
  method ScanNeighbors(edges: seq<Edge>, neighbors: seq<NodeId>, current: NodeId,
                       queue0: seq<NodeId>, visited0: set<NodeId>, prev0: map<NodeId, NodeId>,
                       target: NodeId, ghost start: NodeId, ghost reach: set<NodeId>,
                       ghost level: nat, ghost depth0: map<NodeId, nat>)
    returns (queue: seq<NodeId>, visited: set<NodeId>, prev: map<NodeId, NodeId>, ghost depth: map<NodeId, nat>)
    requires forall w :: w in neighbors <==> Linked(edges, current, w)
    requires Endpoints(edges) <= reach && visited0 == depth0.Keys
    requires ScanState(edges, start, target, reach, current, level, queue0, prev0, depth0)
    ensures visited == depth.Keys
    ensures SearchState(edges, start, target, reach, queue, prev, depth)
    ensures |reach - visited| + |queue| <= |reach - visited0| + |queue0|
  {
    queue, visited, prev, depth := queue0, visited0, prev0, depth0;
    var j := 0;
    while j < |neighbors|
      invariant 0 <= j <= |neighbors|
      invariant visited == depth.Keys
      invariant ScanState(edges, start, target, reach, current, level, queue, prev, depth)
      invariant forall k :: 0 <= k < j ==> neighbors[k] in depth
      invariant |reach - visited| + |queue| <= |reach - visited0| + |queue0|
    {
      var found;
      assert neighbors[j] in neighbors;
      queue, visited, prev, depth, found :=
        VisitNeighbor(edges, current, neighbors[j], queue, visited, prev, target, start, reach, level, depth);
      if found {
        return;
      }
      j := j + 1;
    }
    ScanCloses(edges, neighbors, current, level, queue, depth);
    EndScan(edges, start, target, reach, current, level, queue, prev, depth);
  }

  /** Once every neighbour has been visited, `current` is closed. */
  lemma ScanCloses(edges: seq<Edge>, neighbors: seq<NodeId>, current: NodeId, level: nat,
                   queue: seq<NodeId>, depth: map<NodeId, nat>)
    requires forall w :: w in neighbors <==> Linked(edges, current, w)
    requires forall k :: 0 <= k < |neighbors| ==> neighbors[k] in depth
    requires current in depth && depth[current] == level
    requires QueueLevels(queue, depth, level)
    ensures Closed(edges, depth, current)
  {
    forall w | Linked(edges, current, w) ensures w in depth && depth[w] <= depth[current] + 1 {
      var k :| 0 <= k < |neighbors| && neighbors[k] == w;
    }
  }

  /** Recording `current` as the predecessor of a new neighbour keeps the tree shape. */
  lemma DiscoverTree(edges: seq<Edge>, start: NodeId, prev: map<NodeId, NodeId>, depth: map<NodeId, nat>,
                     current: NodeId, neighbor: NodeId, level: nat)
    requires BfsTree(edges, start, prev, depth)
    requires current in depth && depth[current] == level && Linked(edges, current, neighbor) && neighbor !in depth
    ensures BfsTree(edges, start, prev[neighbor := current], depth[neighbor := level + 1])
  {
  }

  /** A new neighbour of `current` gets a level no route undercuts. */
  lemma DiscoverMinimal(edges: seq<Edge>, start: NodeId, depth: map<NodeId, nat>, queue: seq<NodeId>,
                        current: NodeId, neighbor: NodeId, level: nat)
    requires start in depth && depth[start] == 0 && current in depth && depth[current] == level && neighbor !in depth
    requires forall i :: 0 <= i < |queue| ==> queue[i] in depth && depth[queue[i]] >= depth[current]
    requires forall v :: v in depth && v !in queue && v != current ==> Closed(edges, depth, v)
    requires LevelsMinimal(edges, start, depth)
    ensures LevelsMinimal(edges, start, depth[neighbor := level + 1])
  {
    forall v | v in queue ensures v in depth && depth[v] >= depth[current] {
      var i :| 0 <= i < |queue| && queue[i] == v;
    }
    ShortRoutesEndReached(edges, start, depth, queue, current);
    var depth' := depth[neighbor := level + 1];
    forall v, w | v in depth' && IsRoute(edges, w, start, v) ensures depth'[v] < |w| {
      if v != neighbor {
        assert v in depth;
      }
    }
  }

  lemma DiscoverQueue(queue: seq<NodeId>, depth: map<NodeId, nat>, level: nat, neighbor: NodeId)
    requires neighbor !in depth
    requires QueueLevels(queue, depth, level)
    ensures QueueLevels(queue + [neighbor], depth[neighbor := level + 1], level)
  {
    var queue' := queue + [neighbor];
    assert forall i :: 0 <= i < |queue| ==> queue'[i] == queue[i];
    assert forall v :: v in queue ==> v in queue';
  }

  lemma DiscoverClosed(edges: seq<Edge>, queue: seq<NodeId>, depth: map<NodeId, nat>,
                       current: NodeId, level: nat, neighbor: NodeId)
    requires neighbor !in depth
    requires ProcessedClosed(edges, queue, depth, current)
    ensures ProcessedClosed(edges, queue + [neighbor], depth[neighbor := level + 1], current)
  {
    forall v | v in depth[neighbor := level + 1] && v !in queue + [neighbor] && v != current
      ensures Closed(edges, depth[neighbor := level + 1], v)
    {
      assert v in queue ==> v in queue + [neighbor];
      ClosedGrows(edges, depth, v, neighbor, level + 1);
    }
  }

  lemma UnvisitedShrinks(reach: set<NodeId>, visited: set<NodeId>, n: NodeId)
    requires n in reach && n !in visited
    ensures |reach - (visited + {n})| + 1 == |reach - visited|
  {
    assert reach - (visited + {n}) == (reach - visited) - {n};
  }

  lemma ClosedGrows(edges: seq<Edge>, depth: map<NodeId, nat>, v: NodeId, n: NodeId, d: nat)
    requires Closed(edges, depth, v) && n !in depth
    ensures Closed(edges, depth[n := d], v)
  {
  }

  /** When every reached node is closed and the target is not among them, no route reaches it. */
  lemma Unreachable(edges: seq<Edge>, start: NodeId, target: NodeId, depth: map<NodeId, nat>)
    requires start in depth && target !in depth
    requires forall v :: v in depth ==> Closed(edges, depth, v)
    ensures !Reachable(edges, start, target)
  {
    forall w | IsRoute(edges, w, start, target) ensures w[|w| - 1] in depth {
      RoutesStayInClosed(edges, start, depth, w);
    }
  }

  lemma NoEmptyEndpoint(edges: seq<Edge>)
    requires !HasEmptyId(edges)
    ensures "" !in Endpoints(edges)
  {
    EndpointsIff(edges);
  }

  /** A route between two different nodes starts and ends at edge endpoints. */
  lemma RouteEndsAtEndpoints(edges: seq<Edge>, w: seq<NodeId>, s: NodeId, t: NodeId)
    requires IsRoute(edges, w, s, t) && s != t
    ensures s in Endpoints(edges) && t in Endpoints(edges)
  {
    LinkedEndpoints(edges, w[0], w[1]);
    LinkedEndpoints(edges, w[|w| - 2], w[|w| - 1]);
  }

  /**
   * `bfsShortestPath`: breadth-first search from `start`, then a walk back
   * along the predecessor links. The walk stops at the first id JavaScript
   * treats as false, so an edge naming the empty id can hide a route.
   */
  method ShortestRoute(nodes: seq<Node>, edges: seq<Edge>, start: NodeId, target: NodeId)
    returns (route: Option<seq<NodeId>>)
    ensures start == target ==> route == Some([start])
    ensures route.Some? ==> IsRoute(edges, route.value, start, target)
    ensures route.Some? ==> forall w :: IsRoute(edges, w, start, target) ==> |route.value| <= |w|
    ensures Reachable(edges, start, target) && !HasEmptyId(edges) ==> route.Some?
  {
    if start == target {
      return Some([start]);
    }
    var adj := Adjacency(nodes, edges);
    AdjacencyExact(nodes, edges);
    ghost var reach := Endpoints(edges) + {start};
    var queue := [start];
    var visited := {start};
    var prev: map<NodeId, NodeId> := map[];
    ghost var depth: map<NodeId, nat> := map[start := 0];
    while |queue| > 0
      invariant visited == depth.Keys
      invariant SearchState(edges, start, target, reach, queue, prev, depth)
      decreases |reach - visited| + |queue|
    {
      BeginScan(edges, start, target, reach, queue, prev, depth);
      var current := queue[0];
      var neighbors := if current in adj then adj[current] else [];
      if current !in adj {
        NoNeighborsOffGraph(edges, current);
      }
      NeighborsLinked(edges, current);
      ghost var level := depth[current];
      queue, visited, prev, depth :=
        ScanNeighbors(edges, neighbors, current, queue[1..], visited, prev, target, start, reach, level, depth);
    }
    if target !in visited {
      Unreachable(edges, start, target, depth);
      return None;
    }
    route := TraceBack(edges, prev, start, target, depth);
  }

  /**
   * The walk back from the target: `while (cursor)` prepends each id and
   * follows `prev` until it meets `start`; a missing link reads as undefined
   * and ends the walk.
   */
  method TraceBack(edges: seq<Edge>, prev: map<NodeId, NodeId>, start: NodeId, target: NodeId,
                   ghost depth: map<NodeId, nat>)
    returns (route: Option<seq<NodeId>>)
    requires start != target && target in depth
    requires BfsTree(edges, start, prev, depth) && LevelsMinimal(edges, start, depth)
    ensures route.Some? ==> IsRoute(edges, route.value, start, target)
    ensures route.Some? ==> forall w :: IsRoute(edges, w, start, target) ==> |route.value| <= |w|
    ensures Reachable(edges, start, target) && !HasEmptyId(edges) ==> route.Some?
  {
    var path: seq<NodeId> := [];
    var cursor := target;
    while cursor != ""
      invariant Trail(edges, start, target, depth, cursor, path)
      decreases depth[cursor]
    {
      if cursor == start {
        TrailComplete(edges, start, target, depth, path);
        path := [cursor] + path;
        break;
      }
      TrailStep(edges, prev, start, target, depth, cursor, path);
      path, cursor := [cursor] + path, prev[cursor];
    }
    ReachableEndpoints(edges, start, target);
    if !HasEmptyId(edges) {
      NoEmptyEndpoint(edges);
    }
    if |path| > 0 && path[0] == start {
      route := Some(path);
    } else {
      route := None;
    }
  }

  /**
   * The walk-back state: `path` is the part already prepended, it ends at the
   * target, and `cursor` is linked to its head, one level above it.
   */
  ghost predicate Trail(edges: seq<Edge>, start: NodeId, target: NodeId, depth: map<NodeId, nat>,
                        cursor: NodeId, path: seq<NodeId>) {
    && cursor in depth && target in depth
    && (cursor == target || cursor in Endpoints(edges))
    && (path == [] ==> cursor == target)
    && (path != [] ==> path[0] != start && path[|path| - 1] == target
                       && Connected(edges, [cursor] + path) && |path| + depth[cursor] == depth[target])
  }

  /** Following `prev` from a node other than `start` keeps the walk-back state one level up. */
  lemma TrailStep(edges: seq<Edge>, prev: map<NodeId, NodeId>, start: NodeId, target: NodeId,
                  depth: map<NodeId, nat>, cursor: NodeId, path: seq<NodeId>)
    requires BfsTree(edges, start, prev, depth)
    requires Trail(edges, start, target, depth, cursor, path) && cursor != start
    ensures cursor in prev && prev[cursor] in depth && depth[prev[cursor]] < depth[cursor]
    ensures Trail(edges, start, target, depth, prev[cursor], [cursor] + path)
  {
    var next := prev[cursor];
    var step := [cursor] + path;
    LinkedEndpoints(edges, next, cursor);
    if path == [] {
      assert Connected(edges, step);
    }
    ConnectedCons(edges, next, step);
  }

  /** Reaching `start` completes a shortest route to the target. */
  lemma TrailComplete(edges: seq<Edge>, start: NodeId, target: NodeId, depth: map<NodeId, nat>, path: seq<NodeId>)
    requires start != target && start in depth && depth[start] == 0 && LevelsMinimal(edges, start, depth)
    requires Trail(edges, start, target, depth, start, path)
    ensures IsRoute(edges, [start] + path, start, target)
    ensures forall w :: IsRoute(edges, w, start, target) ==> |[start] + path| <= |w|
  {
    var route := [start] + path;
    assert route[|route| - 1] == path[|path| - 1];
  }

  /** Prepending a node linked to the head keeps a sequence connected. */
  lemma ConnectedCons(edges: seq<Edge>, v: NodeId, w: seq<NodeId>)
    requires |w| > 0 && Linked(edges, v, w[0]) && Connected(edges, w)
    ensures Connected(edges, [v] + w)
  {
    var vw := [v] + w;
    forall i | 0 <= i < |vw| - 1 ensures Linked(edges, vw[i], vw[i + 1]) {
      if i > 0 {
        assert vw[i] == w[i - 1] && vw[i + 1] == w[i];
      }
    }
  }

  lemma ReachableEndpoints(edges: seq<Edge>, start: NodeId, target: NodeId)
    requires start != target
    ensures Reachable(edges, start, target) ==> target in Endpoints(edges)
  {
    if Reachable(edges, start, target) {
      var w :| IsRoute(edges, w, start, target);
      RouteEndsAtEndpoints(edges, w, start, target);
    }
  }
}

=== FILE: text.dfy ===
/**
 * Character-level helpers the editor relies on: decimal rendering of counters
 * (template literals such as `N${n}`), decimal parsing (`Number` applied to a
 * run of `\d` digits) and `String.prototype.trim`.
 */
module Text {

  predicate IsDigit(c: char) {
    '0' <= c <= '9'
  }

  predicate AllDigits(s: string) {
    forall i :: 0 <= i < |s| ==> IsDigit(s[i])
  }

  function DigitChar(d: nat): (c: char)
    requires d < 10
    ensures IsDigit(c)
  {
    ['0', '1', '2', '3', '4', '5', '6', '7', '8', '9'][d]
  }

  function DigitValue(c: char): (d: nat)
    requires IsDigit(c)
    ensures d < 10
  {
    (c as int - '0' as int) as nat
  }

  lemma DigitRoundTrip(d: nat)
    requires d < 10
    ensures DigitValue(DigitChar(d)) == d
  {
  }

  /** Decimal rendering of a natural number, without leading zeros. */
  function Decimal(n: nat): (s: string)
    ensures 1 <= |s|
    ensures AllDigits(s)
  {
    if n < 10 then [DigitChar(n)] else Decimal(n / 10) + [DigitChar(n % 10)]
  }

  /** The value of a run of decimal digits; leading zeros are allowed, as with `Number("007")`. */
  function ParseDecimal(s: string): nat
    requires AllDigits(s)
  {
    if |s| == 0 then 0 else 10 * ParseDecimal(s[..|s| - 1]) + DigitValue(s[|s| - 1])
  }

  /** Parsing undoes rendering. */
  lemma {:induction false} ParseDecimalOfDecimal(n: nat)
    ensures ParseDecimal(Decimal(n)) == n
  {
    var s := Decimal(n);
    if n < 10 {
      DigitRoundTrip(n);
      assert s[..0] == [];
    } else {
      assert s[..|s| - 1] == Decimal(n / 10);
      ParseDecimalOfDecimal(n / 10);
      DigitRoundTrip(n % 10);
    }
  }

  /** Rendering is injective: different counters give different strings. */
  lemma DecimalInjective(m: nat, n: nat)
    requires Decimal(m) == Decimal(n)
    ensures m == n
  {
    ParseDecimalOfDecimal(m);
    ParseDecimalOfDecimal(n);
  }

  /** The characters `String.prototype.trim` strips (ECMAScript WhiteSpace and LineTerminator). */
  predicate IsSpace(c: char) {
    c == '\t' || c == '\n' || c == '\U{000B}' || c == '\U{000C}' || c == '\r' || c == ' '
    || c == '\U{00A0}' || c == '\U{1680}' || ('\U{2000}' <= c <= '\U{200A}')
    || c == '\U{2028}' || c == '\U{2029}' || c == '\U{202F}' || c == '\U{205F}'
    || c == '\U{3000}' || c == '\U{FEFF}'
  }

  function TrimStart(s: string): (r: string)
    ensures |r| <= |s| && r == s[|s| - |r|..]
    ensures |r| > 0 ==> !IsSpace(r[0])
    ensures forall i :: 0 <= i < |s| - |r| ==> IsSpace(s[i])
  {
    if |s| > 0 && IsSpace(s[0]) then TrimStart(s[1..]) else s
  }

  function TrimEnd(s: string): (r: string)
    ensures |r| <= |s| && r == s[..|r|]
    ensures |r| > 0 ==> !IsSpace(r[|r| - 1])
    ensures forall i :: |r| <= i < |s| ==> IsSpace(s[i])
  {
    if |s| > 0 && IsSpace(s[|s| - 1]) then TrimEnd(s[..|s| - 1]) else s
  }

  /** `s.trim()`: the longest infix of `s` that neither starts nor ends with white space. */
  function Trim(s: string): (r: string)
    ensures |r| > 0 ==> !IsSpace(r[0]) && !IsSpace(r[|r| - 1])
    ensures r == [] <==> forall i :: 0 <= i < |s| ==> IsSpace(s[i])
    ensures |r| <= |s|
    ensures exists i :: 0 <= i <= |s| - |r| && r == s[i..][..|r|]
                        && (forall j :: 0 <= j < i ==> IsSpace(s[j]))
                        && (forall j :: i + |r| <= j < |s| ==> IsSpace(s[j]))
  {
    var t := TrimStart(s);
    TrimmedInfix(s, t, TrimEnd(t));
    TrimEnd(t)
  }

  /** Trimming the end of the trimmed start leaves an infix of `s` followed only by white space. */
  lemma TrimmedInfix(s: string, t: string, r: string)
    requires t == TrimStart(s) && r == TrimEnd(t)
    ensures 0 <= |s| - |t| <= |s| - |r| && r == s[|s| - |t|..][..|r|]
    ensures forall j :: |s| - |t| + |r| <= j < |s| ==> IsSpace(s[j])
  {
    var i := |s| - |t|;
    assert t == s[i..];
    forall j | i + |r| <= j < |s| ensures IsSpace(s[j]) {
      assert IsSpace(t[j - i]);
      assert s[i..][j - i] == s[j];
    }
  }

  /** `input.trim() || fallback`: the label editors' rule that a blank entry falls back to the id. */
  function LabelOrFallback(input: string, fallback: string): (r: string)
    ensures (forall i :: 0 <= i < |input| ==> IsSpace(input[i])) ==> r == fallback
    ensures (exists i :: 0 <= i < |input| && !IsSpace(input[i])) ==> r == Trim(input) && r != []
  {
    var t := Trim(input);
    if t == [] then fallback else t
  }
}

=== FILE: wrappers.dfy ===
/**
 * Optional values, the model's stand-in for JavaScript's `null`/`undefined`,
 * and the order-keeping relation that `Array.prototype.filter` results have.
 */
module Wrappers {

  datatype Option<+T> = None | Some(value: T) {

    /** Returns the value held in Some, or `default` for None. */
    function GetOr(default: T): T {
      match this
      case Some(v) => v
      case None => default
    }
  }

  /** `r` is `s` with some elements left out and the rest kept in their order. */
  predicate Subsequence<T(==)>(r: seq<T>, s: seq<T>)
    decreases |s|
  {
    if |r| == 0 then true
    else if |s| == 0 then false
    else (r[0] == s[0] && Subsequence(r[1..], s[1..])) || Subsequence(r, s[1..])
  }
}
